=== FILE: README.md ===
# Expense management front end — a Dafny model

This project models the client-side logic of a Next.js expense-management
app. The app's handlers are small state transformations. Each one is written
here as a pure function from the old state to the new one, with closed
datatypes for roles, expense statuses and condition kinds. The model covers:

- two approval-rule editors:
  - the rule builder edits leveled steps;
  - the flow builder edits role steps with amount or percentage conditions;
- the mock sign-in: role and name derived from the email, signup always
  admin, and the auth context with its fallback users and its saved session;
- expense creation:
  - the server's merge of the posted body with its own fields, and its fixed
    expense list;
  - the submit form's currency conversion, its submission record and its
    currency list;
  - which receipt-reading matches fill in the form;
- the employee dashboard's status tabs, counts and empty messages;
- the approve/reject dialog;
- the user-management page's draft and edit routing;
- role-based navigation and dashboard choice.

Fresh ids, clock readings, server replies, exchange rates, number parsing and
text recognition results are parameters. Amounts are abstract reals. A
parse that gives `NaN` is `None`. JavaScript truthiness is written out:
`0`, `''` and `null` are falsy and an empty array is truthy.

Modules:

- `Basics`: `Option` and `Result`.
- `Lists`: filter, count, index-of.
- `Text`: trim, substring search, first split field, decimal text, string
  order.
- `Domain`: the shared record types.
- One module per modelled source file: `StepEditor`, `FlowBuilder`,
  `Identity`, `Session`, `ExpenseApi`, `SubmitForm`, `CurrencyList`,
  `StatusFilter`, `ApprovalDialog`, `UserAdmin`, `Navigation`.

## Model

| member | source | states |
|---|---|---|
| Domain.ParseRole | expense-management-system/src/lib/types.ts:1 | a text read as a role is that role's spelling |
| Domain.ParseRoleName | expense-management-system/src/lib/types.ts:1 | each of the three roles reads back from its spelling, so role spellings are distinct |
| StepEditor.InitialName | expense-management-system/src/components/rule-builder.tsx:20 | the name starts as the given rule's name, or empty without a rule |
| StepEditor.InitialSteps | expense-management-system/src/components/rule-builder.tsx:21-30 | a given rule's steps are kept even when empty; without a rule there is exactly one manager step at level 1 that is not auto-approved, and that list is well-formed |
| StepEditor.AddStep | expense-management-system/src/components/rule-builder.tsx:33-41 | one manager step, not auto-approved and without a condition, is appended with the fresh id at level `length + 1` whatever the earlier levels are; earlier steps are unchanged; levels 1..n become 1..n+1; a fresh id keeps the list well-formed |
| StepEditor.Renumber | expense-management-system/src/components/rule-builder.tsx:47-50 | every step keeps its fields and gets level position + 1 |
| StepEditor.RemoveStep | expense-management-system/src/components/rule-builder.tsx:43-53 | a no-op with at most one step; otherwise no step with the id is left, as many steps go as carry the id, and the i-th survivor is the i-th step with another id (in the original order), at level i + 1 |
| StepEditor.RemoveStepSurvivors | expense-management-system/src/components/rule-builder.tsx:43-53 | with two or more steps, every step with another id survives at the level of its new position, and every survivor is such a step |
| StepEditor.CountComplement | expense-management-system/src/components/rule-builder.tsx:45 | the kept steps and the removed steps add up to the whole list |
| StepEditor.FilterDropsOnly | expense-management-system/src/components/rule-builder.tsx:45 | with distinct ids, the filter drops exactly the one step with that id and keeps the order of the rest |
| StepEditor.RemoveStepShiftsLater | expense-management-system/src/components/rule-builder.tsx:44-51 | removing step k of a well-formed list keeps the steps before k as they were and moves each later step up one level |
| StepEditor.RemoveAbsentIdKeepsSteps | expense-management-system/src/components/rule-builder.tsx:43-53 | removing an id no step has changes nothing in a well-formed list |
| StepEditor.RemoveStepKeepsWellFormed | expense-management-system/src/components/rule-builder.tsx:43-53 | with distinct ids, removal never empties the list and keeps it well-formed |
| StepEditor.RemoveStepCanEmpty | expense-management-system/src/components/rule-builder.tsx:44-45 | two steps that share an id pass the length guard and are both removed, leaving no step |
| StepEditor.Merge | expense-management-system/src/components/rule-builder.tsx:57 | each field given in the update replaces the step's field; the others stay |
| StepEditor.UpdateStep | expense-management-system/src/components/rule-builder.tsx:55-59 | same length; steps with another id are unchanged; steps with the id become the merge; an update without id or level keeps the list well-formed |
| StepEditor.KindChangePatch | expense-management-system/src/components/rule-builder.tsx:175-181 | the condition gets the chosen kind; a truthy old value is kept and a missing or falsy one becomes the empty text; nothing else is updated |
| StepEditor.ValueEditPatch | expense-management-system/src/components/rule-builder.tsx:198-205 | the condition gets the typed text; the kind is kept, or is percentage when there was no condition |
| StepEditor.ChangeConditionKind | expense-management-system/src/components/rule-builder.tsx:173-182 | the chosen step's condition gets the new kind and its other fields stay; steps with other ids stay; well-formedness is kept |
| StepEditor.EditConditionValue | expense-management-system/src/components/rule-builder.tsx:194-207 | the chosen step's condition value becomes the typed text and its other fields stay; steps with other ids stay; well-formedness is kept |
| StepEditor.ChangeRole | expense-management-system/src/components/rule-builder.tsx:134-139 | only the approver role of the chosen step changes; steps with other ids stay |
| StepEditor.ChangeAutoApprove | expense-management-system/src/components/rule-builder.tsx:153-158 | only the auto-approve flag of the chosen step changes; steps with other ids stay |
| StepEditor.HandleSave | expense-management-system/src/components/rule-builder.tsx:61-70 | nothing is saved exactly when the name is blank; otherwise the trimmed name, which starts with a non-space, is saved with the steps unchanged |
| Text.Trim | expense-management-system/src/components/rule-builder.tsx:62-65 | the result is a slice of the input with only whitespace cut from either end, and it neither starts nor ends with whitespace |
| Text.TrimEmptyIffBlank | expense-management-system/src/components/rule-builder.tsx:62 | the trimmed name is empty exactly when the name is all whitespace |
| FlowBuilder.InitialSteps | expense-management-system/src/components/common/RuleBuilder.tsx:19-25 | one step with id "1", role manager and condition amount 100 |
| FlowBuilder.AddStepAsWritten | expense-management-system/src/components/common/RuleBuilder.tsx:27-34 | an employee step with condition amount 0 and the decimal text of length + 1 as its id is appended; earlier steps are unchanged |
| Text.DecimalRoundTrip | expense-management-system/src/components/common/RuleBuilder.tsx:29 | the decimal text of a number reads back as that number |
| Text.DecimalInjective | expense-management-system/src/components/common/RuleBuilder.tsx:29 | different numbers have different decimal texts |
| FlowBuilder.RemoveStep | expense-management-system/src/components/common/RuleBuilder.tsx:36-38 | no step with the id is left, a step remains exactly when it was in the list with another id, and as many remain as have another id; there is no length guard |
| FlowBuilder.RemoveStepPiecewise | expense-management-system/src/components/common/RuleBuilder.tsx:36-38 | removal distributes over concatenation and keeps a single step exactly when its id differs, which fixes the survivors and their order on every list, duplicate ids included |
| FlowBuilder.DuplicateIdAfterRemoveThenAdd | expense-management-system/src/components/common/RuleBuilder.tsx:27-38 | add, remove "1", add gives two steps with id "2", and one delete click then empties the list |
| FlowBuilder.UpdateStep | expense-management-system/src/components/common/RuleBuilder.tsx:40-44 | same length; one field is set on every step with the id; other steps are unchanged; ids stay unless the id field is set |
| FlowBuilder.UpdateCondition | expense-management-system/src/components/common/RuleBuilder.tsx:46-57 | on steps with the id, one field of the existing condition is overwritten, or a fresh amount-0 condition gets that field; a cleared number input sets the value to `NaN` (`None`); other steps and other step fields are unchanged |
| FlowBuilder.HandleSave | expense-management-system/src/components/common/RuleBuilder.tsx:59-65 | a blank name is refused with the alert text; any other name is saved untrimmed with the steps |
| FlowBuilder.InitialEditor | expense-management-system/src/components/common/RuleBuilder.tsx:19-25 | the counter-based editor starts from the same single step and is valid |
| FlowBuilder.CounterIdIsFresh | expense-management-system/src/components/common/RuleBuilder.tsx:29 | in a valid editor no step carries the counter's next id |
| FlowBuilder.AddStepFresh | expense-management-system/src/components/common/RuleBuilder.tsx:27-34 | the added employee step with condition amount 0 carries an id no other step has, and the editor stays valid |
| FlowBuilder.RemoveVisible | expense-management-system/src/components/common/RuleBuilder.tsx:36-38 | a delete shown only with two or more steps: with distinct ids it removes at most one step, never empties the list and keeps the editor valid |
| FlowBuilder.RemoveVisibleFacts | expense-management-system/src/components/common/RuleBuilder.tsx:36-38 | with distinct ids, removing an id drops exactly the step at its position, and an absent id changes nothing |
| FlowBuilder.RemoveFound | expense-management-system/src/components/common/RuleBuilder.tsx:36-38 | with distinct ids, removing the id at position k drops that one step and keeps the others in order |
| FlowBuilder.DropKeepsValid | expense-management-system/src/components/common/RuleBuilder.tsx:36-38 | dropping one step of a valid editor with two or more steps leaves at least one step, distinct ids and only issued ids |
| FlowBuilder.UpdateStepIn | expense-management-system/src/components/common/RuleBuilder.tsx:40-44 | setting any field but the id keeps the editor valid |
| FlowBuilder.UpdateConditionIn | expense-management-system/src/components/common/RuleBuilder.tsx:46-57 | condition edits keep the editor valid |
| Text.ContainsIffOccurs | expense-management-system/src/app/api/auth/login/route.ts:13 | the scan used for `includes` answers yes exactly when the text occurs at some position |
| Identity.RoleFromEmail | expense-management-system/src/app/api/auth/login/route.ts:13 | admin exactly when the email contains "admin"; manager exactly when it contains "manager" but not "admin"; employee otherwise |
| Identity.NameFromEmail | expense-management-system/src/app/api/auth/login/route.ts:12 | the name is the prefix of the email before its first '@', or the whole email when there is none |
| Text.FirstField | expense-management-system/src/app/api/auth/login/route.ts:12 | the first field is a prefix that contains no separator, and a separator follows it unless it is the whole text |
| Text.FirstFieldAt | expense-management-system/src/app/api/auth/login/route.ts:12 | a prefix with no separator, followed by a separator or the end of the text, is the first field |
| Identity.LoginUser | expense-management-system/src/app/api/auth/login/route.ts:9-16 | id and company "1", the email echoed, the role and name as derived from the email, and the clock reading as creation time |
| Identity.LoginIgnoresPassword | expense-management-system/src/app/api/auth/login/route.ts:5-16 | two passwords give the same user |
| Identity.AdminWinsAnywhere | expense-management-system/src/app/api/auth/login/route.ts:13 | an email naming both roles is admin, and so is one with "admin" only in its domain |
| Identity.SignupUser | expense-management-system/src/app/api/auth/signup/route.ts:8-15 | always an admin, with the given email and name, id and company "1" |
| Identity.SignupIgnoresPassword | expense-management-system/src/app/api/auth/signup/route.ts:5-15 | two passwords give the same user |
| Session.Restore | expense-management-system/src/context/AuthContext.tsx:12-19 | a saved session becomes the user, and without one the user is kept; loading ends and the slot is untouched |
| Session.Reload | expense-management-system/src/context/AuthContext.tsx:9-10 | a reload starts with no user and loading, and keeps the saved slot |
| Session.Login | expense-management-system/src/context/AuthContext.tsx:21-52 | login never fails: the route's user is taken, or else the user derived from the email; either way it is saved and loading ends |
| Session.Signup | expense-management-system/src/context/AuthContext.tsx:54-85 | signup never fails: the route's user is taken, or else an admin with the given email and name; it is saved and loading ends |
| Session.Logout | expense-management-system/src/context/AuthContext.tsx:87-90 | the user and the saved session are cleared |
| Session.SessionSurvivesReload | expense-management-system/src/context/AuthContext.tsx:12-90 | a reload after a login or signup restores exactly the signed-in state; after a logout it restores no user; restoring twice is restoring once |
| Session.UseAuth | expense-management-system/src/context/AuthContext.tsx:99-105 | outside a provider the fixed error is raised; inside, the context is returned |
| ExpenseApi.CreateExpense | expense-management-system/src/app/api/expenses/route.ts:37-45 | the key set is the body's keys plus the server's; status, level, approvers and timestamps are always the server's; a client id beats the generated one; every other client field is copied |
| ExpenseApi.ListExpenses | expense-management-system/src/app/api/expenses/route.ts:7-25 | one expense, approved at level 2 with two approvers and no converted amount |
| SubmitForm.ConvertAmount | expense-management-system/src/app/expenses/submit/page.tsx:76-96 | cleared when the amount, the rates or the company currency is missing or the amount is not a number; the amount itself in the company currency; otherwise the amount times a usable rate, or the previous value when there is none |
| SubmitForm.UsableRate | expense-management-system/src/app/expenses/submit/page.tsx:91-92 | a rate is used exactly when it is present and not zero |
| SubmitForm.HandleSubmit | expense-management-system/src/app/expenses/submit/page.tsx:150-171 | the handler, once the browser lets the submit through: nothing is sent without a user and a company; otherwise a pending level-1 record with no approvers or approvals, the form's fields, and the converted amount or, if that is falsy, the parsed amount |
| SubmitForm.Submit | expense-management-system/src/app/expenses/submit/page.tsx:150-275 | a submit is blocked unless the amount is typed and reads as a number and the category, date and description are filled; a record sent always carries a numeric amount and converted amount and non-empty category, date and description |
| SubmitForm.SameCurrencySubmitsAmount | expense-management-system/src/app/expenses/submit/page.tsx:76-171 | when the conversion is computed from the form being submitted and that form is in the company's own currency, the submitted converted amount is the parsed amount, also when no rates are loaded and the conversion is cleared; the same holds for any record the browser lets through |
| SubmitForm.SetField | expense-management-system/src/app/expenses/submit/page.tsx:68 | an input edit replaces the one edited field of the form and keeps the others |
| SubmitForm.InputChangeAsWritten | expense-management-system/src/app/expenses/submit/page.tsx:67-73 | the edited field takes the value; an amount or currency edit recomputes the conversion from the form as it was before the edit; any other edit keeps the conversion |. The receipt reader's amount fill (lines 123-125) sets only the form and never converts, a second way to send a stale or fallback conversion
| SubmitForm.StaleConversionSubmitted | expense-management-system/src/app/expenses/submit/page.tsx:67-96 | with a USD company, picking EUR, typing 100 and picking USD again leaves a complete USD form that the browser submits, and its record carries amount 100 but converted amount 108 |
| SubmitForm.InputChange | expense-management-system/src/app/expenses/submit/page.tsx:67-73 | corrected handler: an amount or currency edit recomputes the conversion from the edited form; any other edit keeps it |
| SubmitForm.ConvertedFollowsEdit | expense-management-system/src/app/expenses/submit/page.tsx:67-171 | with the corrected handler, an amount or currency edit that leaves the form in the company currency makes the submitted converted amount equal the parsed amount, for the handler's record and for any submit the browser lets through |
| SubmitForm.ToJson | expense-management-system/src/app/expenses/submit/page.tsx:155-168 | the serialised record has no id and carries the amounts, approvers and approvals |
| SubmitForm.StoredSubmission | expense-management-system/src/app/expenses/submit/page.tsx:155-170 | once the server stores a submission, its id is the generated one, it is pending and its empty approver list becomes the server's, while the amounts and the empty approvals come through unchanged |
| SubmitForm.StoredKeepsBody | expense-management-system/src/app/api/expenses/route.ts:37-45 | a body without an id is stored under the generated id, with its amounts and approvals unchanged |
| CurrencyList.Flatten | expense-management-system/src/app/expenses/submit/page.tsx:174 | a code is in the flattened list exactly when some country offers it |
| CurrencyList.FirstOccurrences | expense-management-system/src/app/expenses/submit/page.tsx:175 | the kept list has the same codes, each once |
| CurrencyList.FirstOccurrencesFrom | expense-management-system/src/app/expenses/submit/page.tsx:175 | from a position on, exactly the codes whose first occurrence lies there are kept, each once |
| CurrencyList.Insert | expense-management-system/src/app/expenses/submit/page.tsx:176 | inserting adds one element and nothing else |
| CurrencyList.InsertKeepsOrder | expense-management-system/src/app/expenses/submit/page.tsx:176 | inserting a new code into a strictly increasing list keeps it strictly increasing |
| CurrencyList.Sort | expense-management-system/src/app/expenses/submit/page.tsx:176 | same length and elements; a list without repeats comes out strictly increasing |
| CurrencyList.Currencies | expense-management-system/src/app/expenses/submit/page.tsx:173-176 | strictly increasing, and a code is listed exactly when some country offers it |
| CurrencyList.SortedListIsUnique | expense-management-system/src/app/expenses/submit/page.tsx:176 | two strictly increasing lists with the same elements are equal |
| CurrencyList.CurrenciesAreCanonical | expense-management-system/src/app/expenses/submit/page.tsx:173-176 | any strictly increasing list of exactly the offered codes is the currency list |
| Text.LexLessTransitive | expense-management-system/src/app/expenses/submit/page.tsx:176 | the default string order is transitive |
| Text.LexLessTotal | expense-management-system/src/app/expenses/submit/page.tsx:176 | any two different strings are ordered one way or the other |
| SubmitForm.ReadReceipt | expense-management-system/src/app/expenses/submit/page.tsx:109-118 | the amount is the last match without its first '$', the date is the first match, and the vendor is the first line or "Unknown Vendor" when that is empty |
| Text.RemoveFirst | expense-management-system/src/app/expenses/submit/page.tsx:115 | without the character the text is unchanged; otherwise exactly its first occurrence is removed |
| SubmitForm.AutoFill | expense-management-system/src/app/expenses/submit/page.tsx:98-141 | applied to the current form: a non-empty amount replaces the amount; a valid date replaces the date; the description becomes "Receipt from " and the vendor when it was empty when the upload began, even if typed since; currency and category stay |
| SubmitForm.DescriptionAfterReading | expense-management-system/src/app/expenses/submit/page.tsx:98-141 | a description empty at upload becomes "Receipt from " and a non-empty vendor; one non-empty at upload is left as it now is; without typing during the reading it is never empty afterwards |
| SubmitForm.TypedDescriptionOverwritten | expense-management-system/src/app/expenses/submit/page.tsx:136-140 | "Taxi" typed while a receipt headed "ACME" is read, after an empty description at upload, ends as "Receipt from ACME" |
| StatusFilter.Visible | expense-management-system/src/components/dashboard/employee-dashboard.tsx:31-34 | the all tab shows every expense in order; a status tab shows only that status, as many as the list holds |
| StatusFilter.VisibleIsExactSelection | expense-management-system/src/components/dashboard/employee-dashboard.tsx:33 | an expense is shown under a status tab exactly when it has that status, and the filter keeps the list's order |
| StatusFilter.CountsPartition | expense-management-system/src/components/dashboard/employee-dashboard.tsx:37-39 | pending, approved and rejected counts add up to the number of expenses |
| StatusFilter.BadgeCount | expense-management-system/src/components/dashboard/employee-dashboard.tsx:110-115 | each tab's badge equals the length of the list that tab shows |
| StatusFilter.StatusBadgesAddUp | expense-management-system/src/components/dashboard/employee-dashboard.tsx:110-115 | the three status badges add up to the all badge |
| StatusFilter.EmptyMessagesDiffer | expense-management-system/src/components/dashboard/employee-dashboard.tsx:145-148 | every tab has its own empty message |
| StatusFilter.Render | expense-management-system/src/components/dashboard/employee-dashboard.tsx:139-159 | a spinner exactly while loading; the tab's empty message exactly when its badge is zero; otherwise the visible expenses |
| ApprovalDialog.Render | expense-management-system/src/components/common/ApprovalModal.tsx:27-90 | nothing is shown while closed; confirm is offered exactly when an action is chosen, labelled after that action |
| ApprovalDialog.Handle | expense-management-system/src/components/common/ApprovalModal.tsx:29-82 | typing and choosing change only comments or action and call nothing; confirm calls the chosen action's callback with the comments (none without an action), then close, and clears the dialog; dismissal only calls close |
| ApprovalDialog.HandleCalls | expense-management-system/src/components/common/ApprovalModal.tsx:29-82 | a single event sends a decision only when it confirms, and calls close exactly when it confirms or dismisses |
| ApprovalDialog.CallsPerRun | expense-management-system/src/components/common/ApprovalModal.tsx:29-82 | over any run, decisions are sent at most once per confirmation, and close is called exactly once per confirmation or dismissal |
| ApprovalDialog.LastChoiceWins | expense-management-system/src/components/common/ApprovalModal.tsx:29-75 | after choosing twice, confirmation sends the second choice and the dialog is cleared |
| ApprovalDialog.ConfirmRun | expense-management-system/src/components/common/ApprovalModal.tsx:29-38 | confirming after a choice sends that choice with the comments, then close, and clears the dialog |
| UserAdmin.InitialPage | expense-management-system/src/app/users/page.tsx:52-58 | no form open, and the draft is empty name, empty email, employee |
| UserAdmin.ChangeDraft | expense-management-system/src/app/users/page.tsx:93 | only the edited field of the draft changes |
| UserAdmin.ChangeUser | expense-management-system/src/app/users/page.tsx:91 | only the edited field of the user changes; id, company and creation time stay |
| UserAdmin.InputChange | expense-management-system/src/app/users/page.tsx:89-95 | with an edit open, the edited user changes and the draft stays; otherwise the draft changes and no edit opens |
| UserAdmin.SubmitAddUser | expense-management-system/src/app/users/page.tsx:68-74 | the draft is reset and the form hidden; the user list is unchanged |
| UserAdmin.SubmitEditUser | expense-management-system/src/app/users/page.tsx:76-80 | the edit closes and nothing else changes |
| UserAdmin.DeleteUser | expense-management-system/src/app/users/page.tsx:82-87 | confirmed or not, the page is unchanged |
| UserAdmin.Step | expense-management-system/src/app/users/page.tsx:68-147 | no event changes the user list; typing and submitting the add form need it on screen; a submit whose name is empty or whose e-mail the browser's e-mail check refuses changes nothing, while a valid one resets and hides the add form or closes the edit; opening an edit shows that user; cancelling closes the form and keeps the draft |
| UserAdmin.EmailAccepted | expense-management-system/src/app/users/page.tsx:141-147 | an ordinary address passes the e-mail field's check |
| UserAdmin.DomainAccepted | expense-management-system/src/app/users/page.tsx:141-147 | a domain of letter labels joined by dots passes the check |
| UserAdmin.EmailMissingPartsRefused | expense-management-system/src/app/users/page.tsx:141-147 | the empty text, text with no `@`, nothing after the `@` and nothing before it are all refused |
| UserAdmin.EmailHyphenRefused | expense-management-system/src/app/users/page.tsx:141-147 | a domain label that starts with a hyphen is refused |
| UserAdmin.EmailEmptyLabelRefused | expense-management-system/src/app/users/page.tsx:141-147 | an empty domain label, between two dots, is refused |
| UserAdmin.UsersNeverChange | expense-management-system/src/app/users/page.tsx:68-87 | no run of events changes the user list |
| UserAdmin.EditingShieldsDraft | expense-management-system/src/app/users/page.tsx:89-95 | typing during an edit never touches the draft and the edit stays open |
| Navigation.NavItems | expense-management-system/src/components/common/Navbar.tsx:19-27 | no items without a user; Users appears exactly for admins; the order is Dashboard, Submit Expense, Approvals, [Users], Settings |
| Navigation.NavItemCount | expense-management-system/src/components/common/Navbar.tsx:21-27 | admins see five items, other roles four |
| Navigation.BoardFor | expense-management-system/src/app/dashboard/page.tsx:15-24 | the admin and manager spellings get their own dashboards; any text that is not a role gets the employee dashboard |
| Navigation.RenderDashboard | expense-management-system/src/app/dashboard/page.tsx:12-25 | nothing without a user; otherwise exactly the user's role's dashboard |
| Navigation.DashboardsAreDistinct | expense-management-system/src/app/dashboard/page.tsx:15-21 | different roles get different dashboards |

## Left out

- The multi-step approval workflow: rule selection, step conditions, auto-approval and level advancement. The repository does not implement it. Approve and reject are stubs or bare HTTP calls.
- HTTP, JSON parsing and status codes in the route handlers. The request body is an already-parsed JSON object. The error replies (401, 400, 500) are not modelled.
- `fetch` and React Query in the auth context and the pages. A server reply is an optional parameter, and a failed request is `None`.
- Text recognition of receipts. The recognised text and the two regular-expression match lists are inputs. Only the choice among matches is modelled.
- Floating point: `parseFloat`, `toFixed`, currency formatting, dashboard sums and averages. Amounts and rates are reals, and a `NaN` parse is `None`, in the form as in a step's condition value.
- Date parsing and `toISOString` normalisation. The normalised date is a parameter. `None` means the date was invalid.
- Browser storage. The saved session is an abstract slot, and `JSON.stringify`/`JSON.parse` of a user is taken to round-trip.
- React closure staleness in general. `SubmitForm.ConvertAmount` takes its inputs explicitly. The stale read of `convertAmount` is modelled by `SubmitForm.InputChangeAsWritten` (see Findings), and the stale description test of the receipt reader by `SubmitForm.AutoFill`'s `atUpload` form.
- SubmitForm.SameCurrencySubmitsAmount: holds only for a conversion computed from the form being submitted. On the page the conversion is computed from the form before the last edit, so a conversion left from an earlier currency can be sent; `SubmitForm.StaleConversionSubmitted` shows one.
- SubmitForm.Submit: the `step="0.01"` check of the amount field is not modelled, so an amount with more than two decimals is not refused. Whether the number field's step base makes such amounts invalid depends on how the value attribute is kept in sync, which this model does not describe.
- The category picker is a `Select` component that is not part of this model; its `required` is taken to block an empty category as a native select would.
- The receipt file kept in the expense form state (`receiptFile`) is not carried. It is only shown by name and size and is never sent with the expense.
- The value sanitisation of the browser's e-mail field (line breaks removed, surrounding whitespace trimmed) is not modelled; the e-mail check applies to the text as typed. Internationalised domain names are not modelled either.
- Rendering, styling and role colours. The admin and manager dashboards' hard-coded mock data is also left out.
- The guard component that admits only admins to the users page (`ProtectedRoute` with `['admin']`) is not part of this model.
- The `console.log` calls of the users page's add, edit and delete handlers. They only write to the browser console.
- The error branch of the receipt reader: when recognition fails, an error result is shown and nothing is filled in. Recognition is an input here, so it cannot fail.
- The settings page, the second submit page (a timer plus a log) and the second approval modal (async glue around a callback).
- CurrencyList.Sort: the order is by code point, while JavaScript's default sort compares UTF-16 code units. The two differ only for characters outside the Basic Multilingual Plane, and currency codes are ASCII.
- StepEditor.Merge: a patch field cannot be explicitly `undefined`. The only patches the editor builds set fields to defined values.
- FlowBuilder.UpdateStep: the field name is one of the step's five fields. JavaScript would also accept an arbitrary key.
- UserAdmin.ChangeUser: the field name is one of the three form fields. The role select offers only the three roles, so role changes carry a role rather than free text.
- The optional `managerId` of the user record in `lib/types.ts` is not carried. No modelled handler reads or writes it.

## Findings

| source | as written | input that shows it | evidently intended | confidence | as-written member | corrected member |
|---|---|---|---|---|---|---|
| expense-management-system/src/components/common/RuleBuilder.tsx:29 | a new step's id is the list length plus one, so after a removal it can repeat an id still in use; the unguarded remove (line 37) then deletes both steps at once | start from step "1"; add (ids "1","2"); remove "1" (ids "2"); add (ids "2","2"); delete either step, which empties the list although its delete button is only shown for two or more steps | every added step gets an id no other step has, so deleting removes exactly one step and never empties the list | not executed | FlowBuilder.DuplicateIdAfterRemoveThenAdd | FlowBuilder.AddStepFresh |
| expense-management-system/src/app/expenses/submit/page.tsx:67-73 | `handleInputChange` calls `convertAmount` in the same closure as the state update, so the conversion reads the form from before the edit | a company in USD with EUR rates giving USD 1.08: pick EUR, type 100, pick USD; the record sent has amount 100, currency USD and converted amount 108 | the conversion follows the form after the edit, so in the company currency the converted amount is the amount | not executed | SubmitForm.StaleConversionSubmitted | SubmitForm.ConvertedFollowsEdit |

=== FILE: approval_modal.dfy ===
/** The review dialog of `components/common/ApprovalModal.tsx`. The dialog
    keeps a comment and a chosen action; the parent's callbacks are
    recorded as the calls an event makes, in order. The dialog's state
    lives on while it is hidden. */
module ApprovalDialog {

  import opened Basics
  import Lists

  datatype Decision = Approve | Reject

  datatype DialogState = DialogState(comments: string, action: Option<Decision>)

  /** The parent's callbacks. */
  datatype Callback = CallApprove(comments: string) | CallReject(comments: string) | CallClose

  /** What the user can do while the dialog is shown: type, press Reject or
      Approve, press the confirm button, or close it with X or Cancel. */
  datatype Event = TypeComments(text: string) | Choose(decision: Decision) | Confirm | Dismiss

  datatype Outcome = Outcome(state: DialogState, calls: seq<Callback>)

  /** What is drawn: the comment box, the highlighted action, and the label
      of the confirm button when it is offered. */
  datatype View = View(comments: string, highlighted: Option<Decision>, confirmLabel: Option<string>)

  const Fresh := DialogState("", None)

  /** Nothing is drawn while the dialog is closed; the confirm button is
      offered exactly when an action has been chosen. */
  function Render(isOpen: bool, s: DialogState): (v: Option<View>)
    ensures v.None? <==> !isOpen
    ensures v.Some? ==> v.value.comments == s.comments && v.value.highlighted == s.action
    ensures v.Some? ==> (v.value.confirmLabel.Some? <==> s.action.Some?)
    ensures v.Some? && s.action == Some(Approve) ==> v.value.confirmLabel == Some("Confirm Approval")
    ensures v.Some? && s.action == Some(Reject) ==> v.value.confirmLabel == Some("Confirm Rejection")
  {
    if !isOpen then None
    else
      var caption := (match s.action
        case None => None
        case Some(Approve) => Some("Confirm Approval")
        case Some(Reject) => Some("Confirm Rejection"));
      Some(View(s.comments, s.action, caption))
  }

  predicate IsDecision(c: Callback) {
    c.CallApprove? || c.CallReject?
  }

  /** One event. Choosing only records the action, and a later choice
      replaces an earlier one. Confirming calls the callback of the chosen
      action with the comments (neither when none is chosen), then clears
      the dialog and closes it. Closing calls `onClose` and keeps the
      comments and the action. */
  function Handle(s: DialogState, e: Event): (r: Outcome)
    ensures e.TypeComments? ==> r.state == s.(comments := e.text) && r.calls == []
    ensures e.Choose? ==> r.state == s.(action := Some(e.decision)) && r.calls == []
    ensures e.Dismiss? ==> r.state == s && r.calls == [CallClose]
    ensures e.Confirm? ==> r.state == Fresh && |r.calls| >= 1 && r.calls[|r.calls| - 1] == CallClose
    ensures e.Confirm? ==> Lists.Count(r.calls, IsDecision) == (if s.action.Some? then 1 else 0)
    ensures e.Confirm? && s.action == Some(Approve) ==> r.calls[0] == CallApprove(s.comments)
    ensures e.Confirm? && s.action == Some(Reject) ==> r.calls[0] == CallReject(s.comments)
  {
    match e
    case TypeComments(text) => Outcome(s.(comments := text), [])
    case Choose(d) => Outcome(s.(action := Some(d)), [])
    case Dismiss => Outcome(s, [CallClose])
    case Confirm =>
      var decision := (match s.action
        case None => []
        case Some(Approve) => [CallApprove(s.comments)]
        case Some(Reject) => [CallReject(s.comments)]);
      var calls := decision + [CallClose];
      assert calls[1..] == [] || calls[1..] == [CallClose];
      Outcome(Fresh, calls)
  }

  /** A run of events from a state: the final state and every call made. */
  function Run(s: DialogState, events: seq<Event>): Outcome
    decreases |events|
  {
    if |events| == 0 then Outcome(s, [])
    else
      var first := Handle(s, events[0]);
      var rest := Run(first.state, events[1..]);
      Outcome(rest.state, first.calls + rest.calls)
  }

  predicate IsClose(c: Callback) {
    c.CallClose?
  }

  predicate IsConfirm(e: Event) {
    e.Confirm?
  }

  /** The events that end a showing of the dialog. */
  predicate Ends(e: Event) {
    e.Confirm? || e.Dismiss?
  }

  /** One event sends at most one decision, and only when it confirms, and
      calls `onClose` exactly when it confirms or dismisses. */
  lemma HandleCalls(s: DialogState, e: Event)
    ensures Lists.Count(Handle(s, e).calls, IsDecision) <= (if IsConfirm(e) then 1 else 0)
    ensures Lists.Count(Handle(s, e).calls, IsClose) == (if Ends(e) then 1 else 0)
  {
    var calls := Handle(s, e).calls;
    if e.Dismiss? {
      assert calls[1..] == [];
    } else if e.Confirm? {
      if s.action.Some? {
        assert calls[1..][1..] == [];
      } else {
        assert calls[1..] == [];
      }
    }
  }

  /** Over any run, approve and reject together are called at most once per
      confirmation, and `onClose` exactly once per confirmation or
      dismissal. */
  lemma {:induction false} CallsPerRun(s: DialogState, events: seq<Event>)
    ensures Lists.Count(Run(s, events).calls, IsDecision) <= Lists.Count(events, IsConfirm)
    ensures Lists.Count(Run(s, events).calls, IsClose) == Lists.Count(events, Ends)
    decreases |events|
  {
    if |events| > 0 {
      var first := Handle(s, events[0]);
      var rest := Run(first.state, events[1..]);
      assert Run(s, events).calls == first.calls + rest.calls;
      HandleCalls(s, events[0]);
      CallsPerRun(first.state, events[1..]);
      Lists.CountAppend(first.calls, rest.calls, IsDecision);
      Lists.CountAppend(first.calls, rest.calls, IsClose);
    }
  }

  /** Confirming alone, after a choice, sends that choice and closes. */
  lemma ConfirmRun(s: DialogState, calls: seq<Callback>)
    requires s.action.Some?
    requires calls == [if s.action.value == Approve then CallApprove(s.comments) else CallReject(s.comments), CallClose]
    ensures Run(s, [Confirm]) == Outcome(Fresh, calls)
  {
    assert [Confirm][1..] == [];
    if s.action.value == Approve {
      assert Handle(s, Confirm).calls == [CallApprove(s.comments)] + [CallClose];
    } else {
      assert Handle(s, Confirm).calls == [CallReject(s.comments)] + [CallClose];
    }
  }

  /** Whatever was chosen last is what a confirmation sends. */
  lemma LastChoiceWins(s: DialogState, first: Decision, second: Decision)
    ensures Run(s, [Choose(first), Choose(second), Confirm]).calls
            == [if second == Approve then CallApprove(s.comments) else CallReject(s.comments), CallClose]
    ensures Run(s, [Choose(first), Choose(second), Confirm]).state == Fresh
  {
    var events := [Choose(first), Choose(second), Confirm];
    var s1 := s.(action := Some(first));
    var s2 := s1.(action := Some(second));
    var calls := [if second == Approve then CallApprove(s.comments) else CallReject(s.comments), CallClose];
    ConfirmRun(s2, calls);
    assert Run(s1, [Choose(second), Confirm]) == Outcome(Fresh, calls) by {
      assert [Choose(second), Confirm][1..] == [Confirm];
      assert Handle(s1, Choose(second)) == Outcome(s2, []);
    }
    assert Run(s, events) == Outcome(Fresh, calls) by {
      assert events[1..] == [Choose(second), Confirm];
      assert Handle(s, Choose(first)) == Outcome(s1, []);
    }
  }
}

=== FILE: basics.dfy ===
/** Failure-carrying wrappers shared by the whole model: `Option` stands for a
    value that may be `null`/`undefined` in the application, `Result` for an
    operation that either produces a value or raises an error. */
module Basics {

  datatype Option<+T> = None | Some(value: T) {
    /** The value, or `default` when absent (the `??`/`||` fallback idiom). */
    function GetOr(default: T): T {
      match this
      case Some(v) => v
      case None => default
    }
  }

  datatype Result<+T, +E> = Ok(value: T) | Err(error: E)
}

=== FILE: currency_list.dfy ===
/** The currency choices of `app/expenses/submit/page.tsx`: the currency
    codes of every country, flattened, with later repeats dropped, then in
    the default string sort order. */
module CurrencyList {

  import opened Basics
  import Lists
  import Text

  /** A country as the countries service describes it: the keys of its
      `currencies` record in order, absent for some territories. */
  datatype Country = Country(name: string, currencies: Option<seq<string>>)

  predicate Offers(country: Country, code: string) {
    country.currencies.Some? && code in country.currencies.value
  }

  /** `countries.flatMap(c => Object.keys(c.currencies || {}))`. */
  function Flatten(countries: seq<Country>): (r: seq<string>)
    ensures forall code :: code in r <==> exists i :: 0 <= i < |countries| && Offers(countries[i], code)
  {
    if |countries| == 0 then []
    else
      var rest := Flatten(countries[1..]);
      var here := countries[0].currencies.GetOr([]);
      assert forall code :: (exists i :: 0 <= i < |countries| && Offers(countries[i], code))
                            <==> Offers(countries[0], code)
                                 || exists i :: 0 <= i < |countries[1..]| && Offers(countries[1..][i], code) by {
        forall code ensures (exists i :: 0 <= i < |countries| && Offers(countries[i], code))
                            <==> Offers(countries[0], code)
                                 || exists i :: 0 <= i < |countries[1..]| && Offers(countries[1..][i], code) {
          if i :| 1 <= i < |countries| && Offers(countries[i], code) {
            assert Offers(countries[1..][i - 1], code);
          }
          if i :| 0 <= i < |countries[1..]| && Offers(countries[1..][i], code) {
            assert Offers(countries[i + 1], code);
          }
        }
      }
      here + rest
  }

  /** The elements of `xs` from position `i` on that are the first
      occurrence of their value: `filter((c, i, a) => a.indexOf(c) === i)`
      on the suffix. */
  function FirstOccurrencesFrom(xs: seq<string>, i: nat): (r: seq<string>)
    requires i <= |xs|
    ensures forall c :: c in r ==> 0 <= Lists.IndexOf(xs, c) && i <= Lists.IndexOf(xs, c)
    ensures forall c :: c in xs && i <= Lists.IndexOf(xs, c) ==> c in r
    ensures Lists.Distinct(r)
    decreases |xs| - i
  {
    if i == |xs| then []
    else
      var rest := FirstOccurrencesFrom(xs, i + 1);
      if Lists.IndexOf(xs, xs[i]) == i then
        assert xs[i] !in rest;
        [xs[i]] + rest
      else rest
  }

  /** The de-duplicated array: each code once, at its first occurrence. */
  function FirstOccurrences(xs: seq<string>): (r: seq<string>)
    ensures forall c :: c in r <==> c in xs
    ensures Lists.Distinct(r)
  {
    FirstOccurrencesFrom(xs, 0)
  }

  /** Strictly increasing in the default string order, hence without
      repeats. */
  predicate StrictlySorted(xs: seq<string>) {
    forall i, j :: 0 <= i < j < |xs| ==> Text.LexLess(xs[i], xs[j])
  }

  /** Puts `x` before the first element that is not smaller than it. */
  function Insert(x: string, ys: seq<string>): (r: seq<string>)
    ensures |r| == |ys| + 1
    ensures forall c :: c in r <==> c == x || c in ys
  {
    if |ys| == 0 || !Text.LexLess(ys[0], x) then [x] + ys
    else
      var rest := Insert(x, ys[1..]);
      assert forall c :: c in ys <==> c == ys[0] || c in ys[1..];
      [ys[0]] + rest
  }

  lemma {:induction false} InsertKeepsOrder(x: string, ys: seq<string>)
    requires StrictlySorted(ys) && x !in ys
    ensures StrictlySorted(Insert(x, ys))
  {
    if |ys| == 0 {
    } else if !Text.LexLess(ys[0], x) {
      assert x != ys[0];
      Text.LexLessTotal(x, ys[0]);
      forall j | 1 <= j < |ys| ensures Text.LexLess(x, ys[j]) {
        Text.LexLessTransitive(x, ys[0], ys[j]);
      }
    } else {
      InsertKeepsOrder(x, ys[1..]);
      var r := Insert(x, ys);
      var rest := Insert(x, ys[1..]);
      assert r == [ys[0]] + rest;
      forall j | 0 <= j < |rest| ensures Text.LexLess(ys[0], rest[j]) {
        assert rest[j] in rest;
        if rest[j] != x {
          var k :| 0 <= k < |ys[1..]| && ys[1..][k] == rest[j];
          assert ys[k + 1] == rest[j];
        }
      }
    }
  }

  /** `sort()` on a list of strings: insertion in the default order. */
  function Sort(xs: seq<string>): (r: seq<string>)
    ensures |r| == |xs|
    ensures forall c :: c in r <==> c in xs
    ensures Lists.Distinct(xs) ==> StrictlySorted(r)
  {
    if |xs| == 0 then []
    else
      var rest := Sort(xs[1..]);
      assert forall c :: c in xs <==> c == xs[0] || c in xs[1..];
      if Lists.Distinct(xs) then
        assert Lists.Distinct(xs[1..]);
        assert xs[0] !in xs[1..];
        InsertKeepsOrder(xs[0], rest);
        Insert(xs[0], rest)
      else Insert(xs[0], rest)
  }

  /** The `currencies` list: every code some country offers, each once, in
      strictly increasing order. */
  function Currencies(countries: seq<Country>): (r: seq<string>)
    ensures StrictlySorted(r)
    ensures forall code :: code in r <==> exists i :: 0 <= i < |countries| && Offers(countries[i], code)
  {
    Sort(FirstOccurrences(Flatten(countries)))
  }

  /** A strictly increasing list is determined by its elements, so any
      strictly increasing list of exactly the offered codes is the one the
      page shows. */
  lemma {:induction false} SortedListIsUnique(a: seq<string>, b: seq<string>)
    requires StrictlySorted(a) && StrictlySorted(b)
    requires forall c :: c in a <==> c in b
    ensures a == b
  {
    if |a| == 0 {
      Lists.NoMembersMeansEmpty(b);
    } else {
      assert a[0] in b && b[0] in a;
      var k :| 0 <= k < |b| && b[k] == a[0];
      var m :| 0 <= m < |a| && a[m] == b[0];
      if k > 0 {
        assert Text.LexLess(b[0], a[0]);
        if m == 0 { Text.LexLessIrreflexive(a[0]); } else { Text.LexLessAsymmetric(a[0], a[m]); }
      }
      assert a[0] == b[0];
      forall c ensures c in a[1..] <==> c in b[1..] {
        if c in a[1..] {
          var i :| 1 <= i < |a| && a[i] == c;
          assert c != a[0] by { Text.LexLessIrreflexive(a[0]); }
          assert c in b;
        }
        if c in b[1..] {
          var i :| 1 <= i < |b| && b[i] == c;
          assert c != b[0] by { Text.LexLessIrreflexive(b[0]); }
          assert c in a;
        }
      }
      SortedListIsUnique(a[1..], b[1..]);
      assert a == [a[0]] + a[1..] && b == [b[0]] + b[1..];
    }
  }

  lemma CurrenciesAreCanonical(countries: seq<Country>, other: seq<string>)
    requires StrictlySorted(other)
    requires forall code :: code in other <==> exists i :: 0 <= i < |countries| && Offers(countries[i], code)
    ensures other == Currencies(countries)
  {
    SortedListIsUnique(other, Currencies(countries));
  }
}

=== FILE: domain.dfy ===
/** The entities shared by the pages: the closed role and status
    enumerations, users, companies and stored expenses with their approval
    records. */
module Domain {

  import opened Basics

  /** `UserRole`: exactly three roles. */
  datatype UserRole = Admin | Manager | Employee

  /** The wire spelling of a role. */
  function RoleName(r: UserRole): string {
    match r
    case Admin => "admin"
    case Manager => "manager"
    case Employee => "employee"
  }

  /** Reads a role back from its wire spelling; any other text is not a role. */
  function ParseRole(s: string): (r: Option<UserRole>)
    ensures r.Some? ==> RoleName(r.value) == s
  {
    if s == "admin" then Some(Admin)
    else if s == "manager" then Some(Manager)
    else if s == "employee" then Some(Employee)
    else None
  }

  /** Every role survives the trip to its spelling and back, so the
      spellings are pairwise different. */
  lemma ParseRoleName(r: UserRole)
    ensures ParseRole(RoleName(r)) == Some(r)
  {
    match r
    case Admin =>
    case Manager =>
      assert RoleName(r) != "admin" by { assert RoleName(r)[0] != "admin"[0]; }
    case Employee =>
      assert RoleName(r) != "admin" by { assert RoleName(r)[0] != "admin"[0]; }
      assert RoleName(r) != "manager" by { assert RoleName(r)[0] != "manager"[0]; }
  }

  /** The status of an expense or of an approval: exactly three values. */
  datatype ExpenseStatus = Pending | Approved | Rejected

  function StatusName(s: ExpenseStatus): string {
    match s
    case Pending => "pending"
    case Approved => "approved"
    case Rejected => "rejected"
  }

  /** A signed-in user. */
  datatype User = User(
    id: string,
    email: string,
    name: string,
    role: UserRole,
    companyId: string,
    createdAt: string)

  datatype Company = Company(
    id: string,
    name: string,
    currency: string,
    country: string,
    createdAt: string)

  /** One decision recorded against an expense. */
  datatype Approval = Approval(
    id: string,
    expenseId: string,
    approverId: string,
    status: ExpenseStatus,
    comment: Option<string>,
    createdAt: string)

  /** A stored expense. Amounts are abstract reals. */
  datatype Expense = Expense(
    id: string,
    userId: string,
    amount: real,
    currency: string,
    convertedAmount: real,
    companyCurrency: string,
    category: string,
    description: string,
    date: string,
    receiptUrl: Option<string>,
    status: ExpenseStatus,
    approvalLevel: int,
    approvers: seq<string>,
    approvals: seq<Approval>,
    createdAt: string,
    updatedAt: string)
}

=== FILE: expense_api.dfy ===
/** The expenses route of `app/api/expenses/route.ts`. `POST` builds the
    stored record by spreading the client's JSON object between a generated
    id and the server's own fields, so keys written later win; `GET`
    answers a fixed list. Request parsing and status codes are not
    modelled; the generated id and the two clock readings are parameters. */
module ExpenseApi {

  /** A JSON value. */
  datatype Json =
    | JNull
    | JBool(b: bool)
    | JNum(n: real)
    | JStr(s: string)
    | JArr(items: seq<Json>)
    | JObj(fields: map<string, Json>)

  type JsonObject = map<string, Json>

  /** The keys the server writes after the client's fields: whatever the
      client sends for them is overwritten. */
  const ServerKeys: set<string> := {"status", "approvalLevel", "approvers", "createdAt", "updatedAt"}

  /** `{ id, ...expenseData, status, approvalLevel, approvers, createdAt,
      updatedAt }`: a right-biased union of three objects. */
  function CreateExpense(body: JsonObject, generatedId: string, createdAt: string, updatedAt: string): (r: JsonObject)
    ensures r.Keys == body.Keys + ServerKeys + {"id"}
    ensures r["status"] == JStr("pending") && r["approvalLevel"] == JNum(1.0)
    ensures r["approvers"] == JArr([JStr("manager1")])
    ensures r["createdAt"] == JStr(createdAt) && r["updatedAt"] == JStr(updatedAt)
    ensures "id" in body ==> r["id"] == body["id"]
    ensures "id" !in body ==> r["id"] == JStr(generatedId)
    ensures forall k :: k in body && k !in ServerKeys ==> r[k] == body[k]
  {
    var server := map[
      "status" := JStr("pending"),
      "approvalLevel" := JNum(1.0),
      "approvers" := JArr([JStr("manager1")]),
      "createdAt" := JStr(createdAt),
      "updatedAt" := JStr(updatedAt)];
    assert server.Keys == ServerKeys;
    map["id" := JStr(generatedId)] + body + server
  }

  /** The record `GET` answers with. */
  const MockExpense: JsonObject := map[
    "id" := JStr("1"),
    "userId" := JStr("1"),
    "amount" := JNum(150.0),
    "currency" := JStr("USD"),
    "category" := JStr("meals"),
    "description" := JStr("Business lunch with client"),
    "date" := JStr("2024-01-15"),
    "receiptUrl" := JStr("/receipt1.jpg"),
    "status" := JStr("approved"),
    "approvalLevel" := JNum(2.0),
    "approvers" := JArr([JStr("manager1"), JStr("finance1")]),
    "createdAt" := JStr("2024-01-15T10:00:00Z"),
    "updatedAt" := JStr("2024-01-15T14:30:00Z")]

  /** `GET`: the same one-element list on every call, an expense approved
      at level 2 by two approvers and carrying no converted amount. */
  function ListExpenses(): (r: seq<JsonObject>)
    ensures |r| == 1 && "status" in r[0] && "approvalLevel" in r[0] && "approvers" in r[0]
    ensures r[0]["status"] == JStr("approved") && r[0]["approvalLevel"] == JNum(2.0)
    ensures r[0]["approvers"].JArr? && |r[0]["approvers"].items| == 2
    ensures "convertedAmount" !in r[0]
  {
    [MockExpense]
  }
}

=== FILE: flow_builder.dfy ===
/** The approval-flow editor of `components/common/RuleBuilder.tsx`: a rule
    name and an ordered list of steps whose position is their level. Ids are
    derived from the list length (`AddStepAsWritten`), which can hand out
    an id that is already in use; `FlowEditor` is the corrected editor that
    draws ids from a counter instead. */
module FlowBuilder {

  import opened Basics
  import opened Domain
  import Lists
  import Text

  datatype ConditionKind = Amount | Percentage

  /** `{ type, value }`; a `None` value is the `NaN` that `parseFloat`
      gives for a cleared number input. */
  datatype Condition = Condition(kind: ConditionKind, value: Option<real>)

  /** `ApprovalStep`. */
  datatype FlowStep = FlowStep(
    id: string,
    role: UserRole,
    userId: Option<string>,
    condition: Option<Condition>,
    autoApprove: Option<bool>)

  /** The `[field]: value` of `updateStep`: one field of a step. */
  datatype StepField =
    | IdField(id: string)
    | RoleField(role: UserRole)
    | UserIdField(userId: Option<string>)
    | ConditionField(condition: Option<Condition>)
    | AutoApproveField(autoApprove: Option<bool>)

  /** The `[field]: value` of `updateCondition`: one field of a condition. */
  datatype ConditionEdit = KindEdit(kind: ConditionKind) | ValueEdit(value: Option<real>)

  /** What the save button hands to its caller. */
  datatype SavedFlow = SavedFlow(name: string, steps: seq<FlowStep>)

  const NameMissing := "Please enter a rule name"

  predicate DistinctIds(steps: seq<FlowStep>) {
    forall i, j :: 0 <= i < j < |steps| ==> steps[i].id != steps[j].id
  }

  predicate FreshId(steps: seq<FlowStep>, id: string) {
    forall i :: 0 <= i < |steps| ==> steps[i].id != id
  }

  /** The one step the editor starts with. */
  function InitialSteps(): (r: seq<FlowStep>)
    ensures |r| == 1 && r[0].id == "1" && r[0].role == Manager
    ensures r[0].condition == Some(Condition(Amount, Some(100.0)))
  {
    [FlowStep("1", Manager, None, Some(Condition(Amount, Some(100.0))), None)]
  }

  /** `addStep` as written: an employee step with an amount-0 condition
      whose id is the decimal text of the new length. */
  function AddStepAsWritten(steps: seq<FlowStep>): (r: seq<FlowStep>)
    ensures |r| == |steps| + 1 && r[..|steps|] == steps
    ensures r[|steps|].id == Text.Decimal(|steps| + 1)
    ensures r[|steps|].role == Employee && r[|steps|].condition == Some(Condition(Amount, Some(0.0)))
  {
    steps + [FlowStep(Text.Decimal(|steps| + 1), Employee, None, Some(Condition(Amount, Some(0.0))), None)]
  }

  /** The filter predicate of `removeStep`. */
  function OtherId(id: string): FlowStep -> bool {
    (s: FlowStep) => s.id != id
  }

  /** `removeStep`: every step with that id goes, with no guard of its own;
      the steps that remain are exactly those with another id. */
  function RemoveStep(steps: seq<FlowStep>, id: string): (r: seq<FlowStep>)
    ensures FreshId(r, id)
    ensures |r| == Lists.Count(steps, OtherId(id))
    ensures forall s :: s in r <==> s in steps && s.id != id
  {
    Lists.FilterLength(steps, OtherId(id));
    Lists.FilterMembersAll(steps, OtherId(id));
    Lists.Filter(steps, OtherId(id))
  }

  /** Removal works step by step and keeps the survivors in their order: a
      list split in two loses its steps with the id in each part, and a
      single step stays exactly when its id differs. Together these fix
      `RemoveStep` on every list, duplicate ids included. */
  lemma RemoveStepPiecewise(a: seq<FlowStep>, b: seq<FlowStep>, id: string, s: FlowStep)
    ensures RemoveStep(a + b, id) == RemoveStep(a, id) + RemoveStep(b, id)
    ensures RemoveStep([s], id) == (if s.id != id then [s] else [])
  {
    Lists.FilterAppend(a, b, OtherId(id));
    assert [s][1..] == [];
  }

  /** Two clicks in the editor as written produce two steps with id "2",
      and one click on either delete button, which is shown because there
      are two steps, then empties the list. */
  lemma DuplicateIdAfterRemoveThenAdd()
    ensures var s0 := AddStepAsWritten(InitialSteps());
            var s1 := RemoveStep(s0, "1");
            var s2 := AddStepAsWritten(s1);
            && |s2| == 2 && s2[0].id == "2" && s2[1].id == "2"
            && RemoveStep(s2, "2") == []
  {
    var s0 := AddStepAsWritten(InitialSteps());
    assert s0[1].id == "2";
    assert s0[1..] == [s0[1]];
    var s1 := RemoveStep(s0, "1");
    assert s1 == [s0[1]];
    var s2 := AddStepAsWritten(s1);
    assert s2 == [s0[1], s2[1]];
    assert s2[1].id == "2";
    assert s2[1..] == [s2[1]];
    assert s2[1..][1..] == [];
  }

  /** `{ ...step, [field]: value }`. */
  function SetField(step: FlowStep, f: StepField): FlowStep {
    match f
    case IdField(v) => step.(id := v)
    case RoleField(v) => step.(role := v)
    case UserIdField(v) => step.(userId := v)
    case ConditionField(v) => step.(condition := v)
    case AutoApproveField(v) => step.(autoApprove := v)
  }

  /** `updateStep`: the field is set on every step with that id; all other
      steps, and the length, stay as they were. */
  function UpdateStep(steps: seq<FlowStep>, id: string, f: StepField): (r: seq<FlowStep>)
    ensures |r| == |steps|
    ensures forall i :: 0 <= i < |r| && steps[i].id != id ==> r[i] == steps[i]
    ensures forall i :: 0 <= i < |r| && steps[i].id == id ==> r[i] == SetField(steps[i], f)
    ensures !f.IdField? ==> forall i :: 0 <= i < |r| ==> r[i].id == steps[i].id
  {
    seq(|steps|, i requires 0 <= i < |steps| =>
      if steps[i].id == id then SetField(steps[i], f) else steps[i])
  }

  /** The condition `updateCondition` starts from when a step has none. */
  const DefaultCondition := Condition(Amount, Some(0.0))

  function EditCondition(c: Condition, e: ConditionEdit): Condition {
    match e
    case KindEdit(k) => c.(kind := k)
    case ValueEdit(v) => c.(value := v)
  }

  /** `updateCondition`: one field of the condition of the steps with that
      id is overwritten; a step without a condition gets `{amount, 0}` with
      that field overwritten. Nothing else changes. */
  function UpdateCondition(steps: seq<FlowStep>, id: string, e: ConditionEdit): (r: seq<FlowStep>)
    ensures |r| == |steps|
    ensures forall i :: 0 <= i < |r| && steps[i].id != id ==> r[i] == steps[i]
    ensures forall i :: 0 <= i < |r| && steps[i].id == id ==>
              && r[i].(condition := steps[i].condition) == steps[i]
              && r[i].condition.Some?
              && (e.KindEdit? ==> r[i].condition.value.kind == e.kind)
              && (e.ValueEdit? ==> r[i].condition.value.value == e.value)
    ensures forall i :: 0 <= i < |r| && steps[i].id == id && steps[i].condition.Some? ==>
              (e.KindEdit? ==> r[i].condition.value.value == steps[i].condition.value.value)
              && (e.ValueEdit? ==> r[i].condition.value.kind == steps[i].condition.value.kind)
    ensures forall i :: 0 <= i < |r| && steps[i].id == id && steps[i].condition.None? ==>
              r[i].condition.value == EditCondition(DefaultCondition, e)
  {
    seq(|steps|, i requires 0 <= i < |steps| =>
      if steps[i].id == id
      then steps[i].(condition := Some(EditCondition(steps[i].condition.GetOr(DefaultCondition), e)))
      else steps[i])
  }

  /** `handleSave`: a blank name raises the alert; otherwise the name, not
      trimmed, goes out with the steps. */
  function HandleSave(name: string, steps: seq<FlowStep>): (r: Result<SavedFlow, string>)
    ensures r.Err? <==> Text.Blank(name)
    ensures r.Err? ==> r.error == NameMissing
    ensures r.Ok? ==> r.value.name == name && r.value.steps == steps
  {
    Text.TrimEmptyIffBlank(name);
    if Text.Trim(name) == [] then Err(NameMissing) else Ok(SavedFlow(name, steps))
  }

  // ---- the corrected editor ---------------------------------------------

  /** The editor with an id counter: `nextId` is the number the next added
      step will be named after. */
  datatype FlowEditor = FlowEditor(steps: seq<FlowStep>, nextId: nat)

  /** `id` is the decimal text of a number below `bound`. */
  predicate IssuedBelow(id: string, bound: nat) {
    0 <= Text.DecimalValue(id) < bound && id == Text.Decimal(Text.DecimalValue(id))
  }

  /** At least one step, ids pairwise different, and every id issued by the
      counter before its current value. */
  predicate Valid(e: FlowEditor) {
    && |e.steps| >= 1
    && DistinctIds(e.steps)
    && forall i :: 0 <= i < |e.steps| ==> IssuedBelow(e.steps[i].id, e.nextId)
  }

  function InitialEditor(): (e: FlowEditor)
    ensures Valid(e) && e.steps == InitialSteps()
  {
    assert Text.DecimalValue("1") == 1;
    FlowEditor(InitialSteps(), 2)
  }

  /** The counter's next id is used by no step of a valid editor. */
  lemma {:induction false} CounterIdIsFresh(e: FlowEditor)
    requires Valid(e)
    ensures FreshId(e.steps, Text.Decimal(e.nextId))
  {
    forall i | 0 <= i < |e.steps| ensures e.steps[i].id != Text.Decimal(e.nextId) {
      if e.steps[i].id == Text.Decimal(e.nextId) {
        Text.DecimalRoundTrip(e.nextId);
        assert false;
      }
    }
  }

  /** `addStep` with the counter: the new step's id is used by no other
      step, and the editor stays valid. */
  function AddStepFresh(e: FlowEditor): (r: FlowEditor)
    ensures |r.steps| == |e.steps| + 1 && r.steps[..|e.steps|] == e.steps
    ensures r.steps[|e.steps|].role == Employee
    ensures r.steps[|e.steps|].condition == Some(Condition(Amount, Some(0.0)))
    ensures Valid(e) ==> FreshId(e.steps, r.steps[|e.steps|].id) && Valid(r)
  {
    var id := Text.Decimal(e.nextId);
    var r := FlowEditor(e.steps + [FlowStep(id, Employee, None, Some(Condition(Amount, Some(0.0))), None)], e.nextId + 1);
    if Valid(e) then
      CounterIdIsFresh(e);
      Text.DecimalRoundTrip(e.nextId);
      r
    else r
  }

  /** A click on a step's delete button, which is shown only while there
      is more than one step. In a valid editor it removes exactly the step
      with that id, so the list never becomes empty. */
  function RemoveVisible(e: FlowEditor, id: string): (r: FlowEditor)
    ensures |e.steps| <= 1 ==> r == e
    ensures r.nextId == e.nextId
    ensures Valid(e) ==> Valid(r)
    ensures Valid(e) && |e.steps| > 1 ==>
              forall k :: 0 <= k < |e.steps| && e.steps[k].id == id ==>
                r.steps == e.steps[..k] + e.steps[k + 1..]
    ensures Valid(e) && FreshId(e.steps, id) ==> r == e
  {
    if |e.steps| > 1 then
      var r := e.(steps := RemoveStep(e.steps, id));
      RemoveVisibleFacts(e, id);
      r
    else e
  }

  lemma {:induction false} RemoveVisibleFacts(e: FlowEditor, id: string)
    requires |e.steps| > 1
    ensures Valid(e) ==> Valid(e.(steps := RemoveStep(e.steps, id)))
    ensures Valid(e) ==> forall k :: 0 <= k < |e.steps| && e.steps[k].id == id ==>
              RemoveStep(e.steps, id) == e.steps[..k] + e.steps[k + 1..]
    ensures Valid(e) && FreshId(e.steps, id) ==> RemoveStep(e.steps, id) == e.steps
  {
    if Valid(e) {
      forall k | 0 <= k < |e.steps| && e.steps[k].id == id
        ensures RemoveStep(e.steps, id) == e.steps[..k] + e.steps[k + 1..]
      {
        RemoveFound(e.steps, id, k);
      }
      if k :| 0 <= k < |e.steps| && e.steps[k].id == id {
        RemoveFound(e.steps, id, k);
        DropKeepsValid(e, k);
      } else {
        Lists.FilterKeepsAll(e.steps, OtherId(id));
      }
    }
  }

  /** With distinct ids, removing a present id drops exactly its step. */
  lemma RemoveFound(steps: seq<FlowStep>, id: string, k: nat)
    requires DistinctIds(steps) && k < |steps| && steps[k].id == id
    ensures RemoveStep(steps, id) == steps[..k] + steps[k + 1..]
  {
    forall i | 0 <= i < |steps| && i != k ensures OtherId(id)(steps[i]) {
      if i < k { assert steps[i].id != steps[k].id; } else { assert steps[k].id != steps[i].id; }
    }
    Lists.FilterDropsOne(steps, k, OtherId(id));
  }

  /** Dropping one step of a valid editor with more than one keeps it valid. */
  lemma DropKeepsValid(e: FlowEditor, k: nat)
    requires Valid(e) && |e.steps| > 1 && k < |e.steps|
    ensures Valid(e.(steps := e.steps[..k] + e.steps[k + 1..]))
  {
    var steps := e.steps;
    var r := steps[..k] + steps[k + 1..];
    Lists.DropAt(steps, k, r);
    forall i, j | 0 <= i < j < |r| ensures r[i].id != r[j].id {
      assert r[i] == steps[if i < k then i else i + 1];
      assert r[j] == steps[if j < k then j else j + 1];
    }
    forall i | 0 <= i < |r| ensures IssuedBelow(r[i].id, e.nextId) {
      assert r[i] == steps[if i < k then i else i + 1];
    }
  }

  /** Setting a field other than the id keeps the editor valid. */
  function UpdateStepIn(e: FlowEditor, id: string, f: StepField): (r: FlowEditor)
    requires !f.IdField?
    ensures r.steps == UpdateStep(e.steps, id, f) && r.nextId == e.nextId
    ensures Valid(e) ==> Valid(r)
  {
    e.(steps := UpdateStep(e.steps, id, f))
  }

  /** Editing a condition keeps the editor valid. */
  function UpdateConditionIn(e: FlowEditor, id: string, c: ConditionEdit): (r: FlowEditor)
    ensures r.steps == UpdateCondition(e.steps, id, c) && r.nextId == e.nextId
    ensures Valid(e) ==> Valid(r)
  {
    e.(steps := UpdateCondition(e.steps, id, c))
  }
}

=== FILE: identity.dfy ===
/** The mock identities of the authentication routes
    (`app/api/auth/login/route.ts`, `app/api/auth/signup/route.ts`). Both
    answer without checking anything: the login route derives a user from
    the email alone, the signup route echoes what it is given and makes
    the user an admin. The clock reading is a parameter. */
module Identity {

  import opened Domain
  import Text

  /** `email.includes('admin') ? 'admin' : email.includes('manager') ?
      'manager' : 'employee'`. The substrings may occur anywhere, the
      domain included. */
  function RoleFromEmail(email: string): (r: UserRole)
    ensures r == Admin <==> Text.Occurs(email, "admin")
    ensures r == Manager <==> !Text.Occurs(email, "admin") && Text.Occurs(email, "manager")
    ensures r == Employee <==> !Text.Occurs(email, "admin") && !Text.Occurs(email, "manager")
  {
    Text.ContainsIffOccurs(email, "admin");
    Text.ContainsIffOccurs(email, "manager");
    if Text.Contains(email, "admin") then Admin
    else if Text.Contains(email, "manager") then Manager
    else Employee
  }

  /** `email.split('@')[0]`: the text before the first `@`, or the whole
      email when it has none. */
  function NameFromEmail(email: string): (r: string)
    ensures |r| <= |email| && '@' !in r && r == email[..|r|]
    ensures |r| < |email| ==> email[|r|] == '@'
    ensures '@' !in email ==> r == email
  {
    var r := Text.FirstField(email, '@');
    assert |r| < |email| ==> email[|r|] in email;
    r
  }

  /** The user the login route answers with. */
  function LoginUser(email: string, password: string, now: string): (u: User)
    ensures u.id == "1" && u.companyId == "1" && u.email == email && u.createdAt == now
    ensures u.role == Admin <==> Text.Occurs(email, "admin")
    ensures u.role == Manager <==> !Text.Occurs(email, "admin") && Text.Occurs(email, "manager")
    ensures |u.name| <= |email| && '@' !in u.name && email == u.name + email[|u.name|..]
    ensures |u.name| < |email| ==> email[|u.name|] == '@'
  {
    var name := NameFromEmail(email);
    assert email == name + email[|name|..];
    User("1", email, name, RoleFromEmail(email), "1", now)
  }

  /** The password plays no part in the login answer. */
  lemma LoginIgnoresPassword(email: string, p1: string, p2: string, now: string)
    ensures LoginUser(email, p1, now) == LoginUser(email, p2, now)
  {
  }

  /** An email that mentions both roles is an admin's, and so is one whose
      domain alone mentions admin. */
  lemma AdminWinsAnywhere()
    ensures RoleFromEmail("manager.admin@corp.io") == Admin
    ensures RoleFromEmail("jo@admin.io") == Admin
  {
    assert Text.OccursAt("manager.admin@corp.io", "admin", 8);
    assert Text.OccursAt("jo@admin.io", "admin", 3);
  }

  /** The user the signup route answers with: always an admin, with the
      email and name it was given. */
  function SignupUser(email: string, password: string, name: string, now: string): (u: User)
    ensures u.role == Admin
    ensures u.email == email && u.name == name
    ensures u.id == "1" && u.companyId == "1" && u.createdAt == now
  {
    User("1", email, name, Admin, "1", now)
  }

  /** The password plays no part in the signup answer. */
  lemma SignupIgnoresPassword(email: string, p1: string, p2: string, name: string, now: string)
    ensures SignupUser(email, p1, name, now) == SignupUser(email, p2, name, now)
  {
  }
}

=== FILE: lists.dfy ===
/** Generic sequence operations with the semantics of `Array.prototype`
    methods the application uses: `filter`, the length of a filtered array
    used as a count, and `indexOf`. */
module Lists {

  /** `xs.filter(keep)`. */
  function Filter<T>(xs: seq<T>, keep: T -> bool): (r: seq<T>)
    ensures |r| <= |xs|
    ensures forall i :: 0 <= i < |r| ==> keep(r[i])
  {
    if |xs| == 0 then []
    else
      var rest := Filter(xs[1..], keep);
      if keep(xs[0]) then [xs[0]] + rest else rest
  }

  /** The filtered array holds exactly the elements of `xs` that satisfy
      `keep`. */
  lemma {:induction false} FilterMembers<T>(xs: seq<T>, keep: T -> bool, x: T)
    ensures x in Filter(xs, keep) <==> x in xs && keep(x)
  {
    if |xs| > 0 {
      FilterMembers(xs[1..], keep, x);
      assert x in xs <==> x == xs[0] || x in xs[1..];
    }
  }

  /** `FilterMembers` for every element at once. */
  lemma FilterMembersAll<T>(xs: seq<T>, keep: T -> bool)
    ensures forall x :: x in Filter(xs, keep) <==> x in xs && keep(x)
  {
    forall x ensures x in Filter(xs, keep) <==> x in xs && keep(x) {
      FilterMembers(xs, keep, x);
    }
  }

  /** `xs.filter(p).length`, counted directly. */
  function Count<T>(xs: seq<T>, p: T -> bool): (n: nat)
    ensures n <= |xs|
  {
    if |xs| == 0 then 0 else (if p(xs[0]) then 1 else 0) + Count(xs[1..], p)
  }

  /** Counts over a concatenation add up. */
  lemma {:induction false} CountAppend<T>(xs: seq<T>, ys: seq<T>, p: T -> bool)
    ensures Count(xs + ys, p) == Count(xs, p) + Count(ys, p)
  {
    if |xs| == 0 {
      assert xs + ys == ys;
    } else {
      assert (xs + ys)[1..] == xs[1..] + ys;
      CountAppend(xs[1..], ys, p);
    }
  }

  /** The filtered array has as many elements as the count says. */
  lemma {:induction false} FilterLength<T>(xs: seq<T>, keep: T -> bool)
    ensures |Filter(xs, keep)| == Count(xs, keep)
  {
    if |xs| > 0 { FilterLength(xs[1..], keep); }
  }

  /** Filtering works piecewise, so it keeps the relative order of the
      elements it retains. */
  lemma {:induction false} FilterAppend<T>(xs: seq<T>, ys: seq<T>, keep: T -> bool)
    ensures Filter(xs + ys, keep) == Filter(xs, keep) + Filter(ys, keep)
  {
    if |xs| > 0 {
      assert (xs + ys)[1..] == xs[1..] + ys;
      FilterAppend(xs[1..], ys, keep);
    } else {
      assert xs + ys == ys;
    }
  }

  /** A filter whose predicate holds of every element returns its input. */
  lemma {:induction false} FilterKeepsAll<T>(xs: seq<T>, keep: T -> bool)
    requires forall i :: 0 <= i < |xs| ==> keep(xs[i])
    ensures Filter(xs, keep) == xs
  {
    if |xs| > 0 { FilterKeepsAll(xs[1..], keep); }
  }

  /** A filter that rejects exactly the element at position `k` removes
      that element and nothing else. */
  lemma {:induction false} FilterDropsOne<T>(xs: seq<T>, k: nat, keep: T -> bool)
    requires k < |xs| && !keep(xs[k])
    requires forall i :: 0 <= i < |xs| && i != k ==> keep(xs[i])
    ensures Filter(xs, keep) == xs[..k] + xs[k + 1..]
  {
    var before, after := xs[..k], xs[k + 1..];
    var front := before + [xs[k]];
    FilterKeepsSlice(xs, 0, k, keep);
    FilterKeepsSlice(xs, k + 1, |xs|, keep);
    assert xs[0..k] == before && xs[k + 1..|xs|] == after;
    assert Filter(front, keep) == Filter(before, keep) by {
      assert Filter([xs[k]], keep) == [] by {
        assert [xs[k]][1..] == [];
      }
      FilterAppend(before, [xs[k]], keep);
    }
    assert Filter(xs, keep) == Filter(front, keep) + Filter(after, keep) by {
      assert xs == front + after;
      FilterAppend(front, after, keep);
    }
  }

  /** A filter whose predicate holds on a slice returns that slice. */
  lemma FilterKeepsSlice<T>(xs: seq<T>, lo: nat, hi: nat, keep: T -> bool)
    requires lo <= hi <= |xs|
    requires forall i :: lo <= i < hi ==> keep(xs[i])
    ensures Filter(xs[lo..hi], keep) == xs[lo..hi]
  {
    var part := xs[lo..hi];
    forall i | 0 <= i < |part| ensures keep(part[i]) {
      assert part[i] == xs[lo + i];
    }
    FilterKeepsAll(part, keep);
  }

  /** Removing position `k` shifts every later element down by one. */
  lemma DropAt<T>(xs: seq<T>, k: nat, r: seq<T>)
    requires k < |xs| && r == xs[..k] + xs[k + 1..]
    ensures |r| == |xs| - 1
    ensures forall i :: 0 <= i < |r| ==> r[i] == xs[if i < k then i else i + 1]
  {
    forall i | 0 <= i < |r| ensures r[i] == xs[if i < k then i else i + 1] {
      if i < k { assert r[i] == xs[..k][i]; } else { assert r[i] == xs[k + 1..][i - k]; }
    }
  }

  /** `xs.indexOf(x)`: the first position of `x`, or -1 when it is absent. */
  function IndexOf<T(==)>(xs: seq<T>, x: T): (i: int)
    ensures -1 <= i < |xs|
    ensures i == -1 <==> x !in xs
    ensures 0 <= i ==> xs[i] == x && x !in xs[..i]
  {
    if |xs| == 0 then -1
    else if xs[0] == x then 0
    else
      var j := IndexOf(xs[1..], x);
      assert x in xs ==> x in xs[1..];
      if j == -1 then -1
      else
        assert xs[..j + 1] == [xs[0]] + xs[1..][..j];
        j + 1
  }

  /** A sequence that contains nothing is empty. */
  lemma NoMembersMeansEmpty<T>(xs: seq<T>)
    ensures (forall x :: x !in xs) ==> xs == []
  {
    if |xs| > 0 { assert xs[0] in xs; }
  }

  /** No element occurs twice. */
  predicate Distinct<T(==)>(xs: seq<T>) {
    forall i, j :: 0 <= i < j < |xs| ==> xs[i] != xs[j]
  }

  /** A window of a suffix is a window of the whole sequence. */
  lemma SubSlice<T>(s: seq<T>, a: nat, i: nat, n: nat)
    requires a + i + n <= |s|
    ensures s[a..][i..i + n] == s[a + i..a + i + n]
  {
  }

  /** Every element satisfies `p`. */
  predicate All<T>(xs: seq<T>, p: T -> bool) {
    forall i :: 0 <= i < |xs| ==> p(xs[i])
  }

  /** Every element at a position in `[lo, hi)` satisfies `p`. */
  predicate AllIn<T>(xs: seq<T>, lo: int, hi: int, p: T -> bool) {
    forall i :: lo <= i < hi && 0 <= i < |xs| ==> p(xs[i])
  }

  /** The end of the run of elements satisfying `p` that starts at `i`. */
  function RunEnd<T>(xs: seq<T>, p: T -> bool, i: nat): (n: nat)
    requires i <= |xs|
    ensures i <= n <= |xs| && AllIn(xs, i, n, p)
    ensures n < |xs| ==> !p(xs[n])
    decreases |xs| - i
  {
    if i < |xs| && p(xs[i]) then RunEnd(xs, p, i + 1) else i
  }

  /** The start of the run of elements satisfying `p` that ends at `j`,
      going no further back than `lo`. */
  function RunStart<T>(xs: seq<T>, p: T -> bool, lo: nat, j: nat): (m: nat)
    requires lo <= j <= |xs|
    ensures lo <= m <= j && AllIn(xs, m, j, p)
    ensures lo < m ==> !p(xs[m - 1])
    decreases j
  {
    if lo < j && p(xs[j - 1]) then RunStart(xs, p, lo, j - 1) else j
  }

  /** `r` is a slice of `xs` with only elements satisfying `p` on either
      side of it. */
  ghost predicate Between<T>(xs: seq<T>, r: seq<T>, p: T -> bool) {
    exists k, m :: 0 <= k <= m <= |xs| && r == xs[k..m] && AllIn(xs, 0, k, p) && AllIn(xs, m, |xs|, p)
  }

  /** Both ends stripped of the elements satisfying `p`. */
  function Strip<T>(xs: seq<T>, p: T -> bool): (r: seq<T>)
    ensures Between(xs, r, p)
    ensures r != [] ==> !p(r[0]) && !p(r[|r| - 1])
  {
    var k := RunEnd(xs, p, 0);
    var m := RunStart(xs, p, k, |xs|);
    xs[k..m]
  }

  /** Stripping leaves nothing exactly when every element satisfies `p`. */
  lemma StripEmptyIffAll<T>(xs: seq<T>, p: T -> bool)
    ensures Strip(xs, p) == [] <==> All(xs, p)
  {
    var k := RunEnd(xs, p, 0);
    var m := RunStart(xs, p, k, |xs|);
    if k == m {
      forall i | 0 <= i < |xs| ensures p(xs[i]) {
        if i < k { assert AllIn(xs, 0, k, p); } else { assert AllIn(xs, m, |xs|, p); }
      }
    }
  }
}

=== FILE: navigation.dfy ===
/** Role-based dispatch: the navigation bar of
    `components/common/Navbar.tsx` and the dashboard choice of
    `app/dashboard/page.tsx`. */
module Navigation {

  import opened Basics
  import opened Domain

  datatype NavItem = NavItem(href: string, caption: string)

  const DashboardItem := NavItem("/dashboard", "Dashboard")
  const SubmitItem := NavItem("/submit-expense", "Submit Expense")
  const ApprovalsItem := NavItem("/approvals", "Approvals")
  const UsersItem := NavItem("/users", "Users")
  const SettingsItem := NavItem("/settings", "Settings")

  /** The links shown to the signed-in user, or nothing without one. The
      Users link is inserted before Settings for admins only. */
  function NavItems(user: Option<User>): (r: Option<seq<NavItem>>)
    ensures r.None? <==> user.None?
    ensures r.Some? ==> (UsersItem in r.value <==> user.value.role == Admin)
    ensures r.Some? && user.value.role == Admin ==>
              r.value == [DashboardItem, SubmitItem, ApprovalsItem, UsersItem, SettingsItem]
    ensures r.Some? && user.value.role != Admin ==>
              r.value == [DashboardItem, SubmitItem, ApprovalsItem, SettingsItem]
  {
    match user
    case None => None
    case Some(u) =>
      var extra := if RoleName(u.role) == "admin" then [UsersItem] else [];
      Some([DashboardItem, SubmitItem, ApprovalsItem] + extra + [SettingsItem])
  }

  /** Admins see five links, everyone else four. */
  lemma NavItemCount(u: User)
    ensures |NavItems(Some(u)).value| == if u.role == Admin then 5 else 4
  {
  }

  datatype Board = AdminBoard | ManagerBoard | EmployeeBoard

  /** The dashboard for a role's wire spelling: the three known roles have
      their own, anything else falls back to the employee dashboard. */
  function BoardFor(role: string): (b: Board)
    ensures b == AdminBoard <==> role == "admin"
    ensures b == ManagerBoard <==> role == "manager"
    ensures ParseRole(role).None? ==> b == EmployeeBoard
  {
    if role == "admin" then AdminBoard
    else if role == "manager" then ManagerBoard
    else if role == "employee" then EmployeeBoard
    else EmployeeBoard
  }

  function RoleBoard(role: UserRole): Board {
    match role
    case Admin => AdminBoard
    case Manager => ManagerBoard
    case Employee => EmployeeBoard
  }

  /** `renderDashboard`: nothing without a user, otherwise exactly one
      dashboard, each role its own. */
  function RenderDashboard(user: Option<User>): (r: Option<Board>)
    ensures r.None? <==> user.None?
    ensures r.Some? ==> r.value == RoleBoard(user.value.role)
  {
    match user
    case None => None
    case Some(u) => Some(BoardFor(RoleName(u.role)))
  }

  /** Different roles get different dashboards. */
  lemma DashboardsAreDistinct(a: UserRole, b: UserRole)
    requires a != b
    ensures RoleBoard(a) != RoleBoard(b)
  {
  }
}

=== FILE: session.dfy ===
/** The authentication context of `context/AuthContext.tsx`. The browser's
    saved session is an abstract slot (`stored`), and the outcome of the
    request to the authentication route is a parameter: `Some(user)` when
    it answered, `None` when the request failed, was refused or could not
    be read. */
module Session {

  import opened Basics
  import opened Domain
  import Identity

  datatype AuthState = AuthState(user: Option<User>, loading: bool, stored: Option<User>)

  const OutsideProvider := "useAuth must be used within an AuthProvider"

  /** The provider's first state, before its mount effect has run. */
  const Initial := AuthState(None, true, None)

  /** A page reload: the provider starts over, with no user and loading,
      while the browser keeps the saved session. */
  function Reload(s: AuthState): (r: AuthState)
    ensures r.user.None? && r.loading && r.stored == s.stored
  {
    Initial.(stored := s.stored)
  }

  /** The mount effect: a saved session becomes the user, and without one
      the user is left as it was; either way loading ends and the slot is
      not touched. */
  function Restore(s: AuthState): (r: AuthState)
    ensures s.stored.Some? ==> r.user == s.stored
    ensures s.stored.None? ==> r.user == s.user
    ensures !r.loading && r.stored == s.stored
  {
    match s.stored
    case Some(u) => AuthState(Some(u), false, s.stored)
    case None => s.(loading := false)
  }

  /** `login`: never fails. The route's answer is taken when there is one,
      otherwise a user is derived from the email the way the login route
      does; either way it is saved and loading ends. */
  function Login(s: AuthState, email: string, password: string, reply: Option<User>, now: string): (r: AuthState)
    ensures r.user.Some? && !r.loading && r.stored == r.user
    ensures reply.Some? ==> r.user == reply
    ensures reply.None? ==> r.user.value.email == email
                            && r.user.value.role == Identity.RoleFromEmail(email)
                            && r.user.value.name == Identity.NameFromEmail(email)
  {
    var u := if reply.Some? then reply.value else Identity.LoginUser(email, password, now);
    AuthState(Some(u), false, Some(u))
  }

  /** `signup`: never fails; the fallback user is an admin with the email
      and name that were supplied. */
  function Signup(s: AuthState, email: string, password: string, name: string, reply: Option<User>, now: string): (r: AuthState)
    ensures r.user.Some? && !r.loading && r.stored == r.user
    ensures reply.Some? ==> r.user == reply
    ensures reply.None? ==> r.user.value.role == Admin
                            && r.user.value.email == email && r.user.value.name == name
  {
    var u := if reply.Some? then reply.value else Identity.SignupUser(email, password, name, now);
    AuthState(Some(u), false, Some(u))
  }

  /** `logout`: the user and the saved session are cleared. */
  function Logout(s: AuthState): (r: AuthState)
    ensures r.user.None? && r.stored.None? && r.loading == s.loading
  {
    AuthState(None, s.loading, None)
  }

  /** A login or signup survives a reload: the mount effect brings back the
      user that signed in. After a logout a reload brings back no one, and
      restoring again changes nothing. */
  lemma SessionSurvivesReload(s: AuthState, email: string, password: string, name: string,
                              reply: Option<User>, now: string)
    ensures var t := Login(s, email, password, reply, now);
            Restore(Reload(t)) == t
    ensures var t := Signup(s, email, password, name, reply, now);
            Restore(Reload(t)) == t
    ensures Restore(Reload(Logout(s))).user.None?
    ensures Restore(Restore(s)) == Restore(s)
  {
  }

  /** `useAuth`: the context value, or the error raised outside a
      provider. */
  function UseAuth(context: Option<AuthState>): (r: Result<AuthState, string>)
    ensures r.Err? <==> context.None?
    ensures r.Err? ==> r.error == OutsideProvider
    ensures r.Ok? ==> r.value == context.value
  {
    match context
    case Some(c) => Ok(c)
    case None => Err(OutsideProvider)
  }
}

=== FILE: status_filter.dfy ===
/** The status tabs of `components/dashboard/employee-dashboard.tsx`: the
    list shown under a tab, the per-status counts on the badges, and the
    message shown when a tab is empty. */
module StatusFilter {

  import opened Domain
  import Lists

  datatype Tab = All | Only(status: ExpenseStatus)

  /** The tabs in the order they are drawn. */
  const Tabs := [All, Only(Pending), Only(Approved), Only(Rejected)]

  /** The filter predicate of a tab. */
  function Shows(tab: Tab): Expense -> bool {
    (e: Expense) => tab.All? || e.status == tab.status
  }

  /** `filteredExpenses`: under `All` every expense in the original order,
      under a status tab exactly the expenses with that status. */
  function Visible(expenses: seq<Expense>, tab: Tab): (r: seq<Expense>)
    ensures tab.All? ==> r == expenses
    ensures tab.Only? ==> forall i :: 0 <= i < |r| ==> r[i].status == tab.status
    ensures |r| == Lists.Count(expenses, Shows(tab))
  {
    Lists.FilterLength(expenses, Shows(tab));
    if tab.All? then
      Lists.FilterKeepsAll(expenses, Shows(tab));
      Lists.Filter(expenses, Shows(tab))
    else
      Lists.Filter(expenses, Shows(tab))
  }

  /** An expense is listed under a status tab exactly when it is in the
      list and has that status; the tab keeps the list's order, since it
      filters each part of a split list separately. */
  lemma VisibleIsExactSelection(expenses: seq<Expense>, more: seq<Expense>, s: ExpenseStatus, e: Expense)
    ensures e in Visible(expenses, Only(s)) <==> e in expenses && e.status == s
    ensures Visible(expenses + more, Only(s)) == Visible(expenses, Only(s)) + Visible(more, Only(s))
  {
    Lists.FilterMembers(expenses, Shows(Only(s)), e);
    Lists.FilterAppend(expenses, more, Shows(Only(s)));
  }

  /** The number of expenses with a status (`pendingExpenses`, ...). */
  function StatusCount(expenses: seq<Expense>, s: ExpenseStatus): nat {
    Lists.Count(expenses, Shows(Only(s)))
  }

  /** Status has three values, so the three counts add up to the total. */
  lemma {:induction false} CountsPartition(expenses: seq<Expense>)
    ensures StatusCount(expenses, Pending) + StatusCount(expenses, Approved)
            + StatusCount(expenses, Rejected) == |expenses|
  {
    if |expenses| > 0 { CountsPartition(expenses[1..]); }
  }

  /** The number on a tab's badge. */
  function BadgeCount(expenses: seq<Expense>, tab: Tab): (n: nat)
    ensures n == |Visible(expenses, tab)|
  {
    match tab
    case All => |expenses|
    case Only(s) => StatusCount(expenses, s)
  }

  /** The badges of the three status tabs add up to the badge of `All`. */
  lemma StatusBadgesAddUp(expenses: seq<Expense>)
    ensures BadgeCount(expenses, Tabs[1]) + BadgeCount(expenses, Tabs[2]) + BadgeCount(expenses, Tabs[3])
            == BadgeCount(expenses, Tabs[0])
  {
    CountsPartition(expenses);
  }

  /** The text shown when a tab has no expenses. */
  function EmptyMessage(tab: Tab): string {
    match tab
    case All => "No expenses submitted yet"
    case Only(s) => "No " + StatusName(s) + " expenses found"
  }

  /** Every tab has its own empty message. */
  lemma EmptyMessagesDiffer(a: Tab, b: Tab)
    requires a != b
    ensures EmptyMessage(a) != EmptyMessage(b)
  {
    assert EmptyMessage(a)[3] != EmptyMessage(b)[3];
  }

  datatype ListView = Spinner | Notice(message: string) | Cards(expenses: seq<Expense>)

  /** The list card: a spinner while loading, the tab's empty message when
      nothing is visible, otherwise the visible expenses. */
  function Render(loading: bool, expenses: seq<Expense>, tab: Tab): (v: ListView)
    ensures loading <==> v.Spinner?
    ensures v.Notice? <==> !loading && BadgeCount(expenses, tab) == 0
    ensures v.Notice? ==> v.message == EmptyMessage(tab)
    ensures v.Cards? ==> v.expenses == Visible(expenses, tab) && |v.expenses| == BadgeCount(expenses, tab)
  {
    if loading then Spinner
    else
      var shown := Visible(expenses, tab);
      if |shown| == 0 then Notice(EmptyMessage(tab)) else Cards(shown)
  }
}

=== FILE: step_editor.dfy ===
/** The approval-rule editor of `components/rule-builder.tsx`: a rule name
    and an ordered list of steps, each carrying its own level number. Every
    handler is a pure function from the old step list to the new one; the
    fresh id the editor draws from the clock is a parameter. */
module StepEditor {

  import opened Basics
  import opened Domain
  import Lists
  import Text

  datatype ConditionKind = Percentage | Amount | Category

  /** A condition value is `number | string`: a number when the rule came
      from the server, the raw input text once the user has typed. */
  datatype ConditionValue = Num(n: real) | Str(s: string)

  datatype StepCondition = StepCondition(kind: ConditionKind, value: ConditionValue)

  /** `ApprovalRuleStep`. */
  datatype RuleStep = RuleStep(
    id: string,
    level: int,
    approverRole: UserRole,
    condition: Option<StepCondition>,
    autoApprove: Option<bool>)

  /** `ApprovalRule`. */
  datatype ApprovalRule = ApprovalRule(
    id: string,
    companyId: string,
    name: string,
    rules: seq<RuleStep>,
    createdAt: string)

  /** `Partial<ApprovalRuleStep>`: a field is overwritten when present. */
  datatype StepPatch = StepPatch(
    id: Option<string>,
    level: Option<int>,
    approverRole: Option<UserRole>,
    condition: Option<StepCondition>,
    autoApprove: Option<bool>)

  /** What the save button hands to its caller. */
  datatype SavedRule = SavedRule(name: string, rules: seq<RuleStep>)

  /** JavaScript truthiness of a condition value (`0` and `''` are falsy). */
  predicate Truthy(v: ConditionValue) {
    match v
    case Num(n) => n != 0.0
    case Str(s) => s != ""
  }

  /** Step `i` sits at level `i + 1`, for every `i`. */
  predicate LevelsArePositions(steps: seq<RuleStep>) {
    forall i :: 0 <= i < |steps| ==> steps[i].level == i + 1
  }

  predicate DistinctIds(steps: seq<RuleStep>) {
    forall i, j :: 0 <= i < j < |steps| ==> steps[i].id != steps[j].id
  }

  predicate FreshId(steps: seq<RuleStep>, id: string) {
    forall i :: 0 <= i < |steps| ==> steps[i].id != id
  }

  /** The shape the editor keeps when it starts from its own default: at
      least one step, levels numbered by position, ids pairwise different. */
  predicate WellFormed(steps: seq<RuleStep>) {
    |steps| >= 1 && LevelsArePositions(steps) && DistinctIds(steps)
  }

  /** The step the editor starts with when no rule is given. */
  const DefaultStep := RuleStep("1", 1, Manager, None, Some(false))

  /** `rule?.name || ''`. */
  function InitialName(rule: Option<ApprovalRule>): (r: string)
    ensures rule.None? ==> r == ""
    ensures rule.Some? ==> r == rule.value.name
  {
    match rule
    case Some(x) => x.name
    case None => ""
  }

  /** `rule?.rules || [default]`. An array is truthy even when empty, so a
      given rule's steps are taken as they are, an empty list included. */
  function InitialSteps(rule: Option<ApprovalRule>): (r: seq<RuleStep>)
    ensures rule.Some? ==> r == rule.value.rules
    ensures rule.None? ==> |r| == 1 && r[0].level == 1 && r[0].approverRole == Manager
                           && r[0].autoApprove == Some(false) && r[0].condition.None?
    ensures rule.None? ==> WellFormed(r)
  {
    match rule
    case Some(x) => x.rules
    case None => [DefaultStep]
  }

  /** `addStep`: a manager step at the next level, appended after the
      existing ones, which stay as they were. */
  function AddStep(steps: seq<RuleStep>, freshId: string): (r: seq<RuleStep>)
    ensures |r| == |steps| + 1 && r[..|steps|] == steps
    ensures r[|steps|].id == freshId && r[|steps|].approverRole == Manager
    ensures r[|steps|].level == |steps| + 1
    ensures r[|steps|].autoApprove == Some(false) && r[|steps|].condition.None?
    ensures LevelsArePositions(steps) ==> LevelsArePositions(r)
    ensures WellFormed(steps) && FreshId(steps, freshId) ==> WellFormed(r)
  {
    steps + [RuleStep(freshId, |steps| + 1, Manager, None, Some(false))]
  }

  /** Gives every step the level of its position. */
  function Renumber(steps: seq<RuleStep>): (r: seq<RuleStep>)
    ensures |r| == |steps| && LevelsArePositions(r)
    ensures forall i :: 0 <= i < |r| ==> r[i] == steps[i].(level := i + 1)
  {
    seq(|steps|, i requires 0 <= i < |steps| => steps[i].(level := i + 1))
  }

  /** The filter predicate of `removeStep`: keep the steps with another id. */
  function OtherId(id: string): RuleStep -> bool {
    (s: RuleStep) => s.id != id
  }

  /** `removeStep`: ignored while at most one step is left; otherwise every
      step with that id goes and the rest, in their order, are renumbered:
      the `i`-th survivor is the `i`-th step with another id, at level
      `i + 1`. */
  function RemoveStep(steps: seq<RuleStep>, id: string): (r: seq<RuleStep>)
    ensures |steps| <= 1 ==> r == steps
    ensures |steps| > 1 ==> LevelsArePositions(r)
    ensures |steps| > 1 ==> FreshId(r, id)
    ensures |steps| > 1 ==> |r| + Lists.Count(steps, (s: RuleStep) => s.id == id) == |steps|
    ensures |steps| > 1 ==> var kept := Lists.Filter(steps, OtherId(id));
              |r| == |kept| && forall i :: 0 <= i < |r| ==> r[i] == kept[i].(level := i + 1)
  {
    if |steps| > 1 then
      var kept := Lists.Filter(steps, OtherId(id));
      Lists.FilterLength(steps, OtherId(id));
      CountComplement(steps, id);
      Renumber(kept)
    else steps
  }

  /** Removal keeps every step with another id and nothing else: apart from
      its level, a step survives exactly when it was in the list and its id
      differs. */
  lemma RemoveStepSurvivors(steps: seq<RuleStep>, id: string, s: RuleStep)
    requires |steps| > 1
    ensures (exists i :: 0 <= i < |RemoveStep(steps, id)| && RemoveStep(steps, id)[i] == s.(level := i + 1))
            <== s in steps && s.id != id
    ensures forall i :: 0 <= i < |RemoveStep(steps, id)| ==>
              exists t :: t in steps && t.id != id && RemoveStep(steps, id)[i] == t.(level := i + 1)
  {
    var kept := Lists.Filter(steps, OtherId(id));
    var r := RemoveStep(steps, id);
    Lists.FilterMembersAll(steps, OtherId(id));
    if s in steps && s.id != id {
      var i :| 0 <= i < |kept| && kept[i] == s;
      assert r[i] == s.(level := i + 1);
    }
    forall i | 0 <= i < |r| ensures exists t :: t in steps && t.id != id && r[i] == t.(level := i + 1) {
      assert kept[i] in kept;
    }
  }

  /** Steps with and without a given id add up to the whole list. */
  lemma {:induction false} CountComplement(steps: seq<RuleStep>, id: string)
    ensures Lists.Count(steps, OtherId(id))
            + Lists.Count(steps, (s: RuleStep) => s.id == id) == |steps|
  {
    if |steps| > 0 { CountComplement(steps[1..], id); }
  }

  /** With pairwise different ids, the filter of `removeStep` drops exactly
      the step at position `k`. */
  lemma {:induction false} FilterDropsOnly(steps: seq<RuleStep>, k: nat)
    requires DistinctIds(steps) && k < |steps|
    ensures Lists.Filter(steps, OtherId(steps[k].id)) == steps[..k] + steps[k + 1..]
  {
    var keep := OtherId(steps[k].id);
    forall i | 0 <= i < |steps| && i != k ensures keep(steps[i]) {
      if i < k { assert steps[i].id != steps[k].id; } else { assert steps[k].id != steps[i].id; }
    }
    Lists.FilterDropsOne(steps, k, keep);
  }

  /** Renumbering a list with position `k` cut out: the steps before `k`
      keep their positions and the later ones move up by one. */
  lemma {:induction false} RenumberWithout(steps: seq<RuleStep>, k: nat)
    requires k < |steps|
    ensures var r := Renumber(steps[..k] + steps[k + 1..]);
            && |r| == |steps| - 1
            && (forall i :: 0 <= i < k ==> r[i] == steps[i].(level := i + 1))
            && (forall i :: k <= i < |r| ==> r[i] == steps[i + 1].(level := i + 1))
  {
    var kept := steps[..k] + steps[k + 1..];
    assert forall i :: 0 <= i < k ==> kept[i] == steps[i];
    assert forall i :: k <= i < |kept| ==> kept[i] == steps[i + 1];
  }

  /** Removing the step at position `k` of a well-formed list keeps the
      steps before it as they are and moves each later step up one level. */
  lemma {:induction false} RemoveStepShiftsLater(steps: seq<RuleStep>, k: nat)
    requires WellFormed(steps) && |steps| > 1 && k < |steps|
    ensures var r := RemoveStep(steps, steps[k].id);
            && |r| == |steps| - 1
            && r[..k] == steps[..k]
            && (forall i :: k <= i < |r| ==> r[i] == steps[i + 1].(level := i + 1))
  {
    FilterDropsOnly(steps, k);
    RenumberWithout(steps, k);
    var r := RemoveStep(steps, steps[k].id);
    assert r == Renumber(steps[..k] + steps[k + 1..]);
    forall i | 0 <= i < k ensures r[..k][i] == steps[..k][i] {
      assert steps[i].level == i + 1;
    }
  }

  /** Removing an id that no step carries changes nothing in a well-formed
      list. */
  lemma {:induction false} RemoveAbsentIdKeepsSteps(steps: seq<RuleStep>, id: string)
    requires WellFormed(steps) && FreshId(steps, id)
    ensures RemoveStep(steps, id) == steps
  {
    if |steps| > 1 {
      Lists.FilterKeepsAll(steps, OtherId(id));
    }
  }

  /** Removal keeps a list well-formed: it is never emptied while its ids
      are pairwise different. */
  lemma {:induction false} RemoveStepKeepsWellFormed(steps: seq<RuleStep>, id: string)
    requires WellFormed(steps)
    ensures WellFormed(RemoveStep(steps, id))
  {
    if |steps| > 1 {
      if k :| 0 <= k < |steps| && steps[k].id == id {
        RemoveStepShiftsLater(steps, k);
        var r := RemoveStep(steps, id);
        forall i, j | 0 <= i < j < |r| ensures r[i].id != r[j].id {
          var i' := if i < k then i else i + 1;
          var j' := if j < k then j else j + 1;
          if i < k { assert r[i] == r[..k][i] == steps[..k][i]; }
          if j < k { assert r[j] == r[..k][j] == steps[..k][j]; }
          assert r[i].id == steps[i'].id && r[j].id == steps[j'].id;
        }
      } else {
        RemoveAbsentIdKeepsSteps(steps, id);
      }
    }
  }

  /** With two steps that share an id, one removal empties the list: the
      length guard alone does not keep it non-empty. */
  lemma RemoveStepCanEmpty()
    ensures RemoveStep([RuleStep("7", 1, Manager, None, None),
                        RuleStep("7", 2, Admin, None, None)], "7") == []
  {
    var steps := [RuleStep("7", 1, Manager, None, None), RuleStep("7", 2, Admin, None, None)];
    assert steps == [steps[0]] + [steps[1]];
    assert steps[1..] == [steps[1]];
    assert steps[1..][1..] == [];
  }

  /** `{ ...step, ...updates }`: every field present in the patch replaces
      the step's own. */
  function Merge(step: RuleStep, patch: StepPatch): (r: RuleStep)
    ensures r.id == patch.id.GetOr(step.id) && r.level == patch.level.GetOr(step.level)
    ensures r.approverRole == patch.approverRole.GetOr(step.approverRole)
    ensures patch.condition.Some? ==> r.condition == patch.condition
    ensures patch.condition.None? ==> r.condition == step.condition
    ensures patch.autoApprove.Some? ==> r.autoApprove == patch.autoApprove
    ensures patch.autoApprove.None? ==> r.autoApprove == step.autoApprove
  {
    RuleStep(
      patch.id.GetOr(step.id),
      patch.level.GetOr(step.level),
      patch.approverRole.GetOr(step.approverRole),
      if patch.condition.Some? then patch.condition else step.condition,
      if patch.autoApprove.Some? then patch.autoApprove else step.autoApprove)
  }

  /** `updateStep`: the patch is merged into the steps with that id; every
      other step, and the length, stay as they were. A patch that leaves id
      and level alone keeps the list well-formed. */
  function UpdateStep(steps: seq<RuleStep>, id: string, patch: StepPatch): (r: seq<RuleStep>)
    ensures |r| == |steps|
    ensures forall i :: 0 <= i < |r| && steps[i].id != id ==> r[i] == steps[i]
    ensures forall i :: 0 <= i < |r| && steps[i].id == id ==> r[i] == Merge(steps[i], patch)
    ensures patch.id.None? && patch.level.None? && WellFormed(steps) ==> WellFormed(r)
  {
    seq(|steps|, i requires 0 <= i < |steps| =>
      if steps[i].id == id then Merge(steps[i], patch) else steps[i])
  }

  const NoChange := StepPatch(None, None, None, None, None)

  /** The condition-type select: the new kind with the old value kept,
      unless the old value is absent or falsy, when it becomes `''`. */
  function KindChangePatch(step: RuleStep, kind: ConditionKind): (p: StepPatch)
    ensures p.condition.Some? && p.condition.value.kind == kind
    ensures step.condition.Some? && Truthy(step.condition.value.value)
            ==> p.condition.value.value == step.condition.value.value
    ensures !(step.condition.Some? && Truthy(step.condition.value.value))
            ==> p.condition.value.value == Str("")
    ensures p.(condition := None) == NoChange
  {
    var keep := step.condition.Some? && Truthy(step.condition.value.value);
    NoChange.(condition := Some(StepCondition(kind, if keep then step.condition.value.value else Str(""))))
  }

  /** The condition-value input: the raw text with the kind kept, or
      `'percentage'` when the step has no condition yet. */
  function ValueEditPatch(step: RuleStep, input: string): (p: StepPatch)
    ensures p.condition.Some? && p.condition.value.value == Str(input)
    ensures step.condition.Some? ==> p.condition.value.kind == step.condition.value.kind
    ensures step.condition.None? ==> p.condition.value.kind == Percentage
    ensures p.(condition := None) == NoChange
  {
    var kind := if step.condition.Some? then step.condition.value.kind else Percentage;
    NoChange.(condition := Some(StepCondition(kind, Str(input))))
  }

  /** Choosing a condition kind on the card of step `i`: the new kind, with
      the old value kept when it is truthy and `''` otherwise. Every step
      sharing the id gets the same condition. */
  function ChangeConditionKind(steps: seq<RuleStep>, i: nat, kind: ConditionKind): (r: seq<RuleStep>)
    requires i < |steps|
    ensures |r| == |steps| && r[i].condition.Some? && r[i].condition.value.kind == kind
    ensures steps[i].condition.Some? && Truthy(steps[i].condition.value.value)
            ==> r[i].condition.value.value == steps[i].condition.value.value
    ensures !(steps[i].condition.Some? && Truthy(steps[i].condition.value.value))
            ==> r[i].condition.value.value == Str("")
    ensures forall j :: 0 <= j < |r| && steps[j].id == steps[i].id ==> r[j] == steps[j].(condition := r[i].condition)
    ensures r[i].(condition := steps[i].condition) == steps[i]
    ensures forall j :: 0 <= j < |r| && steps[j].id != steps[i].id ==> r[j] == steps[j]
    ensures WellFormed(steps) ==> WellFormed(r)
  {
    UpdateStep(steps, steps[i].id, KindChangePatch(steps[i], kind))
  }

  /** Typing into the condition-value field on the card of step `i`: the
      typed text, with the old kind kept, or `'percentage'` when the step
      had no condition. Every step sharing the id gets the same condition. */
  function EditConditionValue(steps: seq<RuleStep>, i: nat, input: string): (r: seq<RuleStep>)
    requires i < |steps|
    ensures |r| == |steps| && r[i].condition.Some? && r[i].condition.value.value == Str(input)
    ensures steps[i].condition.Some? ==> r[i].condition.value.kind == steps[i].condition.value.kind
    ensures steps[i].condition.None? ==> r[i].condition.value.kind == Percentage
    ensures forall j :: 0 <= j < |r| && steps[j].id == steps[i].id ==> r[j] == steps[j].(condition := r[i].condition)
    ensures r[i].(condition := steps[i].condition) == steps[i]
    ensures forall j :: 0 <= j < |r| && steps[j].id != steps[i].id ==> r[j] == steps[j]
    ensures WellFormed(steps) ==> WellFormed(r)
  {
    UpdateStep(steps, steps[i].id, ValueEditPatch(steps[i], input))
  }

  /** The approver-role select on the card of step `i`. */
  function ChangeRole(steps: seq<RuleStep>, i: nat, role: UserRole): (r: seq<RuleStep>)
    requires i < |steps|
    ensures |r| == |steps| && r[i] == steps[i].(approverRole := role)
    ensures forall j :: 0 <= j < |r| && steps[j].id != steps[i].id ==> r[j] == steps[j]
    ensures WellFormed(steps) ==> WellFormed(r)
  {
    UpdateStep(steps, steps[i].id, NoChange.(approverRole := Some(role)))
  }

  /** The auto-approve select on the card of step `i`. */
  function ChangeAutoApprove(steps: seq<RuleStep>, i: nat, auto: bool): (r: seq<RuleStep>)
    requires i < |steps|
    ensures |r| == |steps| && r[i] == steps[i].(autoApprove := Some(auto))
    ensures forall j :: 0 <= j < |r| && steps[j].id != steps[i].id ==> r[j] == steps[j]
    ensures WellFormed(steps) ==> WellFormed(r)
  {
    UpdateStep(steps, steps[i].id, NoChange.(autoApprove := Some(auto)))
  }

  /** `handleSave`: nothing is emitted for a blank name; otherwise the
      trimmed name and the steps exactly as they are. */
  function HandleSave(name: string, steps: seq<RuleStep>): (r: Option<SavedRule>)
    ensures r.None? <==> Text.Blank(name)
    ensures r.Some? ==> r.value.rules == steps && r.value.name == Text.Trim(name)
    ensures r.Some? ==> r.value.name != [] && !Text.IsWhitespace(r.value.name[0])
                        && !Text.IsWhitespace(r.value.name[|r.value.name| - 1])
  {
    Text.TrimEmptyIffBlank(name);
    var trimmed := Text.Trim(name);
    if trimmed == [] then None else Some(SavedRule(trimmed, steps))
  }
}

=== FILE: submit_form.dfy ===
/** The expense form of `app/expenses/submit/page.tsx`: the amount
    conversion, the record `handleSubmit` sends, and the reading of a
    scanned receipt. Amounts and rates are abstract reals; `parseFloat`
    results, the loaded exchange rates, the text recognised on a receipt,
    its regular-expression matches and the normalised date are parameters.
    A `None` number stands for `null` or `NaN`. */
module SubmitForm {

  import opened Basics
  import opened Domain
  import Text
  import ExpenseApi

  datatype ExpenseForm = ExpenseForm(
    amount: string,
    currency: string,
    category: string,
    description: string,
    date: string)

  /** The record `handleSubmit` hands to the create-expense request. */
  datatype NewExpense = NewExpense(
    userId: string,
    amount: Option<real>,
    currency: string,
    convertedAmount: Option<real>,
    companyCurrency: string,
    category: string,
    description: string,
    date: string,
    status: ExpenseStatus,
    approvalLevel: int,
    approvers: seq<string>,
    approvals: seq<Approval>)

  /** What the receipt reader extracts. */
  datatype ReceiptReading = ReceiptReading(
    text: string,
    extractedAmount: Option<string>,
    extractedDate: Option<string>,
    vendor: string)

  const UnknownVendor := "Unknown Vendor"
  const ReceiptPrefix := "Receipt from "

  /** JavaScript truthiness of a number that may be `null`: `null` and `0`
      are falsy. */
  predicate TruthyNumber(x: Option<real>) {
    x.Some? && x.value != 0.0
  }

  /** `!formData.amount || !exchangeRates || !company?.currency` and the
      `isNaN` test: the cases in which the conversion is cleared. */
  predicate ConversionBlocked(form: ExpenseForm, parsed: Option<real>,
                              rates: Option<map<string, real>>, companyCurrency: Option<string>) {
    form.amount == "" || rates.None? || companyCurrency.None? || companyCurrency.value == ""
    || parsed.None?
  }

  /** `convertAmount`, over the inputs it reads: `parsed` is
      `parseFloat(form.amount)`, `previous` the converted amount shown so
      far. The rates check comes first, so even a same-currency amount is
      cleared while no rates are loaded; a missing or zero rate leaves the
      previous value in place. */
  function ConvertAmount(form: ExpenseForm, parsed: Option<real>, rates: Option<map<string, real>>,
                         companyCurrency: Option<string>, previous: Option<real>): (r: Option<real>)
    ensures ConversionBlocked(form, parsed, rates, companyCurrency) ==> r == None
    ensures !ConversionBlocked(form, parsed, rates, companyCurrency) && form.currency == companyCurrency.value
            ==> r == parsed
    ensures !ConversionBlocked(form, parsed, rates, companyCurrency) && form.currency != companyCurrency.value
            ==> (UsableRate(rates.value, companyCurrency.value).Some?
                 ==> r == Some(Scale(parsed.value, UsableRate(rates.value, companyCurrency.value).value)))
                && (UsableRate(rates.value, companyCurrency.value).None? ==> r == previous)
  {
    if ConversionBlocked(form, parsed, rates, companyCurrency) then None
    else if form.currency == companyCurrency.value then parsed
    else
      var rate := UsableRate(rates.value, companyCurrency.value);
      if rate.Some? then Some(Scale(parsed.value, rate.value)) else previous
  }

  /** `amount * rate`. */
  function Scale(amount: real, rate: real): real {
    amount * rate
  }

  /** `exchangeRates.rates[currency]` when it is truthy: present and not
      zero. */
  function UsableRate(rates: map<string, real>, currency: string): (r: Option<real>)
    ensures r.Some? <==> currency in rates && rates[currency] != 0.0
    ensures r.Some? ==> r.value == rates[currency]
  {
    if currency in rates && rates[currency] != 0.0 then Some(rates[currency]) else None
  }

  /** `handleSubmit`: nothing is sent without a user and a company;
      otherwise a pending record at level 1 with no approvers and no
      approvals, whose converted amount falls back to the parsed amount
      when the conversion is `null` or `0`. */
  function HandleSubmit(user: Option<User>, company: Option<Company>, form: ExpenseForm,
                        parsed: Option<real>, converted: Option<real>): (r: Option<NewExpense>)
    ensures r.None? <==> user.None? || company.None?
    ensures r.Some? ==> r.value.status == Pending && r.value.approvalLevel == 1
                        && r.value.approvers == [] && r.value.approvals == []
    ensures r.Some? ==> r.value.userId == user.value.id && r.value.companyCurrency == company.value.currency
    ensures r.Some? ==> r.value.amount == parsed
    ensures r.Some? && TruthyNumber(converted) ==> r.value.convertedAmount == converted
    ensures r.Some? && !TruthyNumber(converted) ==> r.value.convertedAmount == parsed
    ensures r.Some? ==> r.value.currency == form.currency && r.value.category == form.category
                        && r.value.description == form.description && r.value.date == form.date
  {
    if user.None? || company.None? then None
    else
      Some(NewExpense(
        user.value.id,
        parsed,
        form.currency,
        if TruthyNumber(converted) then converted else parsed,
        company.value.currency,
        form.category,
        form.description,
        form.date,
        Pending,
        1,
        [],
        []))
  }

  /** The browser's constraint validation of the expense form: the amount,
      category, date and description are required, and the amount field
      is a number field, so its text must read as a number. */
  predicate SubmitValid(form: ExpenseForm, parsed: Option<real>) {
    form.amount != "" && parsed.Some? && form.category != "" && form.date != "" && form.description != ""
  }

  /** Pressing submit: the browser blocks the event while the form fails
      its checks; otherwise `handleSubmit` runs. Every record sent has a
      numeric amount and converted amount and a category, date and
      description. */
  function Submit(user: Option<User>, company: Option<Company>, form: ExpenseForm,
                  parsed: Option<real>, converted: Option<real>): (r: Option<NewExpense>)
    ensures r.None? <==> user.None? || company.None? || !SubmitValid(form, parsed)
    ensures r.Some? ==> r.value.amount.Some? && r.value.convertedAmount.Some?
    ensures r.Some? ==> r.value.category != "" && r.value.date != "" && r.value.description != ""
    ensures r.Some? && !TruthyNumber(converted) ==> r.value.convertedAmount == r.value.amount
    ensures r.Some? ==> r == HandleSubmit(user, company, form, parsed, converted)
  {
    if SubmitValid(form, parsed) then HandleSubmit(user, company, form, parsed, converted) else None
  }

  /** When the conversion is computed from the form being submitted, and
      that form is in the company's own currency, the record's converted
      amount is the parsed amount, whether the conversion went through or
      was cleared because no rates are loaded: the `||` fallback covers
      the latter. A conversion left over from an earlier form need not
      agree; see `StaleConversionSubmitted`. */
  lemma SameCurrencySubmitsAmount(user: User, company: Company, form: ExpenseForm, parsed: Option<real>,
                                  rates: Option<map<string, real>>, previous: Option<real>)
    requires form.currency == company.currency
    ensures var converted := ConvertAmount(form, parsed, rates, Some(company.currency), previous);
            HandleSubmit(Some(user), Some(company), form, parsed, converted).value.convertedAmount == parsed
    ensures var converted := ConvertAmount(form, parsed, rates, Some(company.currency), previous);
            var r := Submit(Some(user), Some(company), form, parsed, converted);
            r.Some? ==> r.value.convertedAmount == parsed
  {
  }

  // ---- editing the form ----------------------------------------------------

  /** The form fields an input edits. */
  datatype Field = AmountField | CurrencyField | CategoryField | DescriptionField | DateField

  /** The form and the converted amount shown under it. */
  datatype FormState = FormState(form: ExpenseForm, converted: Option<real>)

  /** `{ ...prev, [field]: value }`: the one field takes the value. */
  function SetField(form: ExpenseForm, f: Field, value: string): (r: ExpenseForm)
    ensures f.AmountField? ==> r == form.(amount := value)
    ensures f.CurrencyField? ==> r == form.(currency := value)
    ensures f.CategoryField? ==> r == form.(category := value)
    ensures f.DescriptionField? ==> r == form.(description := value)
    ensures f.DateField? ==> r == form.(date := value)
  {
    match f
    case AmountField => form.(amount := value)
    case CurrencyField => form.(currency := value)
    case CategoryField => form.(category := value)
    case DescriptionField => form.(description := value)
    case DateField => form.(date := value)
  }

  predicate Converts(f: Field) {
    f.AmountField? || f.CurrencyField?
  }

  /** `handleInputChange` as written: the field takes the value, and on an
      amount or currency edit `convertAmount` runs in the same closure, so
      it reads the form from before the edit. `parse` stands for
      `parseFloat`. */
  function InputChangeAsWritten(s: FormState, f: Field, value: string, parse: string -> Option<real>,
                                rates: Option<map<string, real>>, companyCurrency: Option<string>): (r: FormState)
    ensures r.form == SetField(s.form, f, value)
    ensures Converts(f) ==> r.converted == ConvertAmount(s.form, parse(s.form.amount), rates, companyCurrency, s.converted)
    ensures !Converts(f) ==> r.converted == s.converted
  {
    var converted := if Converts(f) then ConvertAmount(s.form, parse(s.form.amount), rates, companyCurrency, s.converted)
                     else s.converted;
    FormState(SetField(s.form, f, value), converted)
  }

  /** The stale conversion reaches the server. With a company in USD: pick
      EUR, type 100, pick USD again. The last conversion still sees 100 EUR
      and scales it by the EUR rate for USD, so a 100 USD expense is sent
      with a converted amount of 108. */
  lemma StaleConversionSubmitted(user: User, company: Company)
    requires company.currency == "USD"
    ensures var parse := (t: string) => if t == "100" then Some(100.0) else None;
            var rates := Some(map["USD" := 1.08]);
            var s0 := FormState(ExpenseForm("", "USD", "Travel", "2024-01-15", "Taxi"), None);
            var s1 := InputChangeAsWritten(s0, CurrencyField, "EUR", parse, rates, Some("USD"));
            var s2 := InputChangeAsWritten(s1, AmountField, "100", parse, rates, Some("USD"));
            var s3 := InputChangeAsWritten(s2, CurrencyField, "USD", parse, rates, Some("USD"));
            var sent := Submit(Some(user), Some(company), s3.form, parse(s3.form.amount), s3.converted);
            && s3.form.currency == company.currency
            && sent.Some? && sent.value.amount == Some(100.0) && sent.value.convertedAmount == Some(108.0)
  {
    var parse := (t: string) => if t == "100" then Some(100.0) else None;
    var rates := Some(map["USD" := 1.08]);
    var s0 := FormState(ExpenseForm("", "USD", "Travel", "2024-01-15", "Taxi"), None);
    var s1 := InputChangeAsWritten(s0, CurrencyField, "EUR", parse, rates, Some("USD"));
    assert s1 == FormState(ExpenseForm("", "EUR", "Travel", "2024-01-15", "Taxi"), None);
    var s2 := InputChangeAsWritten(s1, AmountField, "100", parse, rates, Some("USD"));
    assert s2 == FormState(ExpenseForm("100", "EUR", "Travel", "2024-01-15", "Taxi"), None);
    var s3 := InputChangeAsWritten(s2, CurrencyField, "USD", parse, rates, Some("USD"));
    assert UsableRate(rates.value, "USD") == Some(1.08);
    assert s3 == FormState(ExpenseForm("100", "USD", "Travel", "2024-01-15", "Taxi"), Some(Scale(100.0, 1.08)));
    assert SubmitValid(s3.form, Some(100.0));
  }

  /** `handleInputChange` with the conversion reading the edited form. */
  function InputChange(s: FormState, f: Field, value: string, parse: string -> Option<real>,
                       rates: Option<map<string, real>>, companyCurrency: Option<string>): (r: FormState)
    ensures r.form == SetField(s.form, f, value)
    ensures Converts(f) ==> r.converted == ConvertAmount(r.form, parse(r.form.amount), rates, companyCurrency, s.converted)
    ensures !Converts(f) ==> r.converted == s.converted
  {
    var form := SetField(s.form, f, value);
    var converted := if Converts(f) then ConvertAmount(form, parse(form.amount), rates, companyCurrency, s.converted)
                     else s.converted;
    FormState(form, converted)
  }

  /** With the corrected handler, an amount or currency edit that leaves the
      form in the company's currency makes the record's converted amount
      the parsed amount. */
  lemma ConvertedFollowsEdit(user: User, company: Company, s: FormState, f: Field, value: string,
                             parse: string -> Option<real>, rates: Option<map<string, real>>)
    requires Converts(f) && SetField(s.form, f, value).currency == company.currency
    ensures var r := InputChange(s, f, value, parse, rates, Some(company.currency));
            HandleSubmit(Some(user), Some(company), r.form, parse(r.form.amount), r.converted).value.convertedAmount
            == parse(r.form.amount)
    ensures var r := InputChange(s, f, value, parse, rates, Some(company.currency));
            var sent := Submit(Some(user), Some(company), r.form, parse(r.form.amount), r.converted);
            sent.Some? ==> sent.value.convertedAmount == parse(r.form.amount)
  {
    var r := InputChange(s, f, value, parse, rates, Some(company.currency));
    SameCurrencySubmitsAmount(user, company, r.form, parse(r.form.amount), rates, s.converted);
  }

  // ---- the record as JSON, and what the expenses route makes of it -------

  function JsonNumber(x: Option<real>): ExpenseApi.Json {
    match x
    case Some(v) => ExpenseApi.JNum(v)
    case None => ExpenseApi.JNull
  }

  function JsonApproval(a: Approval): ExpenseApi.Json {
    ExpenseApi.JObj(map[
      "id" := ExpenseApi.JStr(a.id),
      "expenseId" := ExpenseApi.JStr(a.expenseId),
      "approverId" := ExpenseApi.JStr(a.approverId),
      "status" := ExpenseApi.JStr(StatusName(a.status)),
      "createdAt" := ExpenseApi.JStr(a.createdAt)]
      + (if a.comment.Some? then map["comment" := ExpenseApi.JStr(a.comment.value)] else map[]))
  }

  /** `JSON.stringify` of the submitted record (`NaN` becomes `null`). */
  function ToJson(e: NewExpense): (j: ExpenseApi.JsonObject)
    ensures "id" !in j
    ensures "amount" in j && j["amount"] == JsonNumber(e.amount)
    ensures "convertedAmount" in j && j["convertedAmount"] == JsonNumber(e.convertedAmount)
    ensures "approvers" in j && j["approvers"] == JsonStrings(e.approvers)
    ensures "approvals" in j && j["approvals"] == JsonApprovals(e.approvals)
  {
    map[
      "userId" := ExpenseApi.JStr(e.userId),
      "amount" := JsonNumber(e.amount),
      "currency" := ExpenseApi.JStr(e.currency),
      "convertedAmount" := JsonNumber(e.convertedAmount),
      "companyCurrency" := ExpenseApi.JStr(e.companyCurrency),
      "category" := ExpenseApi.JStr(e.category),
      "description" := ExpenseApi.JStr(e.description),
      "date" := ExpenseApi.JStr(e.date),
      "status" := ExpenseApi.JStr(StatusName(e.status)),
      "approvalLevel" := ExpenseApi.JNum(e.approvalLevel as real),
      "approvers" := JsonStrings(e.approvers),
      "approvals" := JsonApprovals(e.approvals)]
  }

  function JsonStrings(xs: seq<string>): ExpenseApi.Json {
    ExpenseApi.JArr(seq(|xs|, i requires 0 <= i < |xs| => ExpenseApi.JStr(xs[i])))
  }

  function JsonApprovals(xs: seq<Approval>): ExpenseApi.Json {
    ExpenseApi.JArr(seq(|xs|, i requires 0 <= i < |xs| => JsonApproval(xs[i])))
  }

  /** A submitted form, once stored: the server generates the id and
      replaces the empty approver list with `['manager1']`, while the
      amounts and the empty approvals list come through unchanged. */
  lemma StoredSubmission(user: User, company: Company, form: ExpenseForm, parsed: Option<real>,
                         converted: Option<real>, id: string, t1: string, t2: string)
    ensures var e := HandleSubmit(Some(user), Some(company), form, parsed, converted).value;
            var stored := ExpenseApi.CreateExpense(ToJson(e), id, t1, t2);
            && ToJson(e)["approvers"] == ExpenseApi.JArr([])
            && stored["approvers"] == ExpenseApi.JArr([ExpenseApi.JStr("manager1")])
            && stored["id"] == ExpenseApi.JStr(id)
            && stored["status"] == ExpenseApi.JStr("pending")
            && stored["approvals"] == ExpenseApi.JArr([])
            && stored["amount"] == JsonNumber(parsed)
            && stored["convertedAmount"] == JsonNumber(e.convertedAmount)
  {
    var e := HandleSubmit(Some(user), Some(company), form, parsed, converted).value;
    var j := ToJson(e);
    assert j["approvers"] == ExpenseApi.JArr([]) by {
      assert JsonStrings([]) == ExpenseApi.JArr([]);
    }
    assert j["approvals"] == ExpenseApi.JArr([]) by {
      assert JsonApprovals([]) == ExpenseApi.JArr([]);
    }
    StoredKeepsBody(j, id, t1, t2);
  }

  /** The fields of a body without an id that the server does not set come
      back unchanged, next to the generated id. */
  lemma StoredKeepsBody(j: ExpenseApi.JsonObject, id: string, t1: string, t2: string)
    requires "id" !in j && "amount" in j && "convertedAmount" in j && "approvals" in j
    ensures var stored := ExpenseApi.CreateExpense(j, id, t1, t2);
            && stored["id"] == ExpenseApi.JStr(id)
            && stored["approvals"] == j["approvals"]
            && stored["amount"] == j["amount"]
            && stored["convertedAmount"] == j["convertedAmount"]
  {
    assert "approvals" !in ExpenseApi.ServerKeys && "amount" !in ExpenseApi.ServerKeys
           && "convertedAmount" !in ExpenseApi.ServerKeys;
  }

  // ---- the receipt reader ------------------------------------------------

  /** The result object built from the recognised text. `amountMatches`
      and `dateMatches` are the matches of the amount and date patterns, an
      empty list standing for the `null` a failed `match` returns. The
      amount is the last amount match with its `$` removed, the date the
      first date match, the vendor the first line, or `'Unknown Vendor'`
      when that line is empty. */
  function ReadReceipt(text: string, amountMatches: seq<string>, dateMatches: seq<string>): (r: ReceiptReading)
    ensures r.text == text
    ensures r.extractedAmount.Some? <==> |amountMatches| > 0
    ensures |amountMatches| > 0 ==>
              r.extractedAmount.value == Text.RemoveFirst(amountMatches[|amountMatches| - 1], '$')
    ensures r.extractedDate.Some? <==> |dateMatches| > 0
    ensures |dateMatches| > 0 ==> r.extractedDate.value == dateMatches[0]
    ensures r.vendor != []
    ensures Text.FirstField(text, '\n') != [] ==> r.vendor == Text.FirstField(text, '\n')
    ensures Text.FirstField(text, '\n') == [] ==> r.vendor == UnknownVendor
  {
    var firstLine := Text.FirstField(text, '\n');
    ReceiptReading(
      text,
      if |amountMatches| > 0 then Some(Text.RemoveFirst(amountMatches[|amountMatches| - 1], '$')) else None,
      if |dateMatches| > 0 then Some(dateMatches[0]) else None,
      if firstLine != [] then firstLine else UnknownVendor)
  }

  /** The auto-fill after a reading, applied to `form`, the form as it is
      when recognition ends. The amount is replaced by a non-empty extracted
      amount; the date by `normalizedDate` (the extracted date when it
      parses as a date, in ISO form) when a date was extracted. The
      description is filled in when it was empty in `atUpload`, the form
      the upload handler captured when it started, so a description typed
      while the receipt was being read is overwritten. Currency and
      category are never touched. The fill only sets the form, so the
      converted amount is not recomputed for the read amount: it keeps
      whatever the last typed edit left, or falls back to the amount on
      submit. */
  function AutoFill(atUpload: ExpenseForm, form: ExpenseForm, reading: ReceiptReading,
                    normalizedDate: Option<string>): (r: ExpenseForm)
    ensures r.currency == form.currency && r.category == form.category
    ensures reading.extractedAmount.Some? && reading.extractedAmount.value != []
            ==> r.amount == reading.extractedAmount.value
    ensures !(reading.extractedAmount.Some? && reading.extractedAmount.value != []) ==> r.amount == form.amount
    ensures reading.extractedDate.Some? && reading.extractedDate.value != [] && normalizedDate.Some?
            ==> r.date == normalizedDate.value
    ensures !(reading.extractedDate.Some? && reading.extractedDate.value != []) || normalizedDate.None?
            ==> r.date == form.date
    ensures atUpload.description != [] || reading.vendor == [] ==> r.description == form.description
    ensures atUpload.description == [] && reading.vendor != [] ==> r.description == ReceiptPrefix + reading.vendor
  {
    var amount := if reading.extractedAmount.Some? && reading.extractedAmount.value != []
                  then reading.extractedAmount.value else form.amount;
    var date := if reading.extractedDate.Some? && reading.extractedDate.value != [] && normalizedDate.Some?
                then normalizedDate.value else form.date;
    var description := if reading.vendor != [] && atUpload.description == []
                       then ReceiptPrefix + reading.vendor else form.description;
    form.(amount := amount, date := date, description := description)
  }

  /** After a reading, a description that was empty at upload becomes
      "Receipt from" and the vendor, which is never empty, whatever was
      typed meanwhile; one that was not empty at upload is left as it now
      is. Without typing during the reading, the description is never empty
      afterwards. */
  lemma DescriptionAfterReading(atUpload: ExpenseForm, form: ExpenseForm, text: string,
                                amounts: seq<string>, dates: seq<string>, normalizedDate: Option<string>)
    ensures var reading := ReadReceipt(text, amounts, dates);
            var r := AutoFill(atUpload, form, reading, normalizedDate);
            && (atUpload.description == [] ==> r.description == ReceiptPrefix + reading.vendor && reading.vendor != [])
            && (atUpload.description != [] ==> r.description == form.description)
            && (form == atUpload ==> r.description != [])
  {
  }

  /** A description typed while the receipt is read is lost: it was empty
      at upload, "Taxi" was typed, and the first line read is "ACME". */
  lemma TypedDescriptionOverwritten()
    ensures AutoFill(ExpenseForm("", "USD", "travel", "", ""), ExpenseForm("", "USD", "travel", "Taxi", ""),
                     ReadReceipt("ACME", [], []), None).description
            == "Receipt from ACME"
  {
    assert Text.FirstField("ACME", '\n') == "ACME";
  }
}

=== FILE: text.dfy ===
/** String helpers with the semantics of the JavaScript built-ins the
    application calls: `trim`, `includes`, `split(sep)[0]`, `replace` with a
    string pattern, `Number.prototype.toString` on naturals, and the default
    `Array.prototype.sort` order on strings. Strings are sequences of
    characters. */
module Text {

  import Lists

  /** The characters `String.prototype.trim` removes: the ECMAScript
      WhiteSpace and LineTerminator code points. */
  predicate IsWhitespace(c: char) {
    || c == '\t' || c == '\n' || c == '\U{000B}' || c == '\U{000C}' || c == '\r'
    || c == ' ' || c == '\U{00A0}' || c == '\U{1680}'
    || ('\U{2000}' <= c <= '\U{200A}')
    || c == '\U{2028}' || c == '\U{2029}' || c == '\U{202F}' || c == '\U{205F}'
    || c == '\U{3000}' || c == '\U{FEFF}'
  }

  /** A string that `trim` turns into the empty (falsy) string. */
  predicate Blank(s: string) {
    Lists.All(s, IsWhitespace)
  }

  /** `s.trim()`: the contiguous middle of `s` between a whitespace-only
      prefix and a whitespace-only suffix (`Lists.Between`), neither end of
      it whitespace. */
  function Trim(s: string): (r: string)
    ensures Lists.Between(s, r, IsWhitespace)
    ensures r == [] || (!IsWhitespace(r[0]) && !IsWhitespace(r[|r| - 1]))
  {
    Lists.Strip(s, IsWhitespace)
  }

  /** `!s.trim()` holds exactly for the strings made of whitespace only. */
  lemma TrimEmptyIffBlank(s: string)
    ensures Trim(s) == [] <==> Blank(s)
  {
    Lists.StripEmptyIffAll(s, IsWhitespace);
  }

  /** `s.startsWith(p)`. */
  predicate StartsWith(s: string, p: string) {
    |p| <= |s| && s[..|p|] == p
  }

  /** `s.includes(t)`, computed by scanning the start positions of `s`. */
  predicate Contains(s: string, t: string)
    decreases |s|
  {
    StartsWith(s, t) || (|s| > 0 && Contains(s[1..], t))
  }

  /** The window of `s` starting at `i` spells `t`. */
  predicate OccursAt(s: string, t: string, i: int) {
    0 <= i && i + |t| <= |s| && s[i..i + |t|] == t
  }

  /** The meaning of "`t` occurs in `s`": some window of `s` equals `t`. */
  ghost predicate Occurs(s: string, t: string) {
    exists i :: OccursAt(s, t, i)
  }

  /** The scan agrees with the window definition, in both directions. */
  lemma {:induction false} ContainsIffOccurs(s: string, t: string)
    ensures Contains(s, t) <==> Occurs(s, t)
    decreases |s|
  {
    if |s| > 0 {
      ContainsIffOccurs(s[1..], t);
      if Occurs(s[1..], t) {
        var i :| OccursAt(s[1..], t, i);
        assert 0 <= i && i + |t| <= |s| - 1;
        Lists.SubSlice(s, 1, i, |t|);
        assert OccursAt(s, t, i + 1);
      }
      if StartsWith(s, t) {
        assert OccursAt(s, t, 0);
      }
      if Occurs(s, t) && !StartsWith(s, t) {
        var i :| OccursAt(s, t, i);
        Lists.SubSlice(s, 1, i - 1, |t|);
        assert OccursAt(s[1..], t, i - 1);
      }
    } else {
      if StartsWith(s, t) {
        assert OccursAt(s, t, 0);
      }
      if Occurs(s, t) {
        var i :| OccursAt(s, t, i);
        assert s[..|t|] == s[i..i + |t|];
      }
    }
  }

  /** `s.split(sep)[0]`: the text before the first `sep`, or all of `s` when
      it has none. */
  function FirstField(s: string, sep: char): (r: string)
    ensures |r| <= |s| && r == s[..|r|]
    ensures sep !in r
    ensures |r| < |s| ==> s[|r|] == sep
  {
    if |s| == 0 || s[0] == sep then [] else [s[0]] + FirstField(s[1..], sep)
  }

  /** The first field is the prefix that ends at the first separator, or
      at the end of the text when there is none. */
  lemma FirstFieldAt(s: string, sep: char, n: nat)
    requires n <= |s| && sep !in s[..n] && (n == |s| || s[n] == sep)
    ensures FirstField(s, sep) == s[..n]
  {
  }

  /** `s.replace(c, '')` with a one-character string pattern: only the first
      occurrence of `c` is removed, and nothing happens when there is none. */
  function RemoveFirst(s: string, c: char): (r: string)
    ensures c !in s ==> r == s
    ensures c in s ==> |r| == |s| - 1
    ensures c in s ==> exists i :: 0 <= i < |s| && s[i] == c && c !in s[..i]
                                   && r == s[..i] + s[i + 1..]
  {
    var i := Lists.IndexOf(s, c);
    if i < 0 then s else s[..i] + s[i + 1..]
  }

  // ---- decimal rendering of naturals ----------------------------------

  function DigitChar(d: nat): char
    requires d < 10
  {
    ('0' as int + d) as char
  }

  function DigitValue(c: char): int {
    c as int - '0' as int
  }

  /** `n.toString()` for a natural number. */
  function Decimal(n: nat): (r: string)
    ensures |r| >= 1
    ensures forall i :: 0 <= i < |r| ==> '0' <= r[i] <= '9'
  {
    if n < 10 then [DigitChar(n)] else Decimal(n / 10) + [DigitChar(n % 10)]
  }

  /** The value a string of decimal digits denotes (most significant first). */
  function DecimalValue(s: string): int {
    if |s| == 0 then 0 else DecimalValue(s[..|s| - 1]) * 10 + DigitValue(s[|s| - 1])
  }

  /** Reading back the rendering of `n` gives `n`. */
  lemma {:induction false} DecimalRoundTrip(n: nat)
    ensures DecimalValue(Decimal(n)) == n
  {
    var s := Decimal(n);
    if n < 10 {
      assert s[..|s| - 1] == [];
    } else {
      assert s[..|s| - 1] == Decimal(n / 10);
      DecimalRoundTrip(n / 10);
    }
  }

  /** Different naturals render as different strings. */
  lemma DecimalInjective(a: nat, b: nat)
    ensures Decimal(a) == Decimal(b) <==> a == b
  {
    DecimalRoundTrip(a);
    DecimalRoundTrip(b);
  }

  // ---- the default sort order on strings -------------------------------

  /** `a < b` on strings: lexicographic by character code, a proper prefix
      ordered first. */
  predicate LexLess(a: string, b: string)
    decreases |a|
  {
    if |a| == 0 then |b| > 0
    else if |b| == 0 then false
    else a[0] < b[0] || (a[0] == b[0] && LexLess(a[1..], b[1..]))
  }

  lemma {:induction false} LexLessIrreflexive(a: string)
    ensures !LexLess(a, a)
    decreases |a|
  {
    if |a| > 0 { LexLessIrreflexive(a[1..]); }
  }

  lemma {:induction false} LexLessTransitive(a: string, b: string, c: string)
    requires LexLess(a, b) && LexLess(b, c)
    ensures LexLess(a, c)
    decreases |a|
  {
    if |a| > 0 && |b| > 0 && |c| > 0 && a[0] == b[0] && b[0] == c[0] {
      LexLessTransitive(a[1..], b[1..], c[1..]);
    }
  }

  /** Any two different strings are ordered one way or the other. */
  lemma {:induction false} LexLessTotal(a: string, b: string)
    requires a != b
    ensures LexLess(a, b) || LexLess(b, a)
    decreases |a|
  {
    if |a| > 0 && |b| > 0 && a[0] == b[0] {
      assert a == [a[0]] + a[1..] && b == [b[0]] + b[1..];
      LexLessTotal(a[1..], b[1..]);
    }
  }

  lemma LexLessAsymmetric(a: string, b: string)
    requires LexLess(a, b)
    ensures !LexLess(b, a)
  {
    if LexLess(b, a) {
      LexLessTransitive(a, b, a);
      LexLessIrreflexive(a);
    }
  }
}

=== FILE: user_admin.dfy ===
/** The user-management page of `app/users/page.tsx`: the new-user draft,
    the edit dialog, and which record an input change goes to. Adding,
    editing and deleting are unfinished in the page, so none of them
    touches the user list. */
module UserAdmin {

  import opened Basics
  import opened Domain
  import Text

  datatype UserDraft = UserDraft(name: string, email: string, role: UserRole)

  /** The draft the page starts from and returns to after adding. */
  const EmptyDraft := UserDraft("", "", Employee)

  /** An edit made in one of the form's three inputs; the role select only
      offers the three roles. */
  datatype FieldChange = NameChange(name: string) | EmailChange(email: string) | RoleChange(role: UserRole)

  datatype UsersPage = UsersPage(users: seq<User>, adding: bool, editing: Option<User>, draft: UserDraft)

  datatype PageEvent =
    | OpenAdd
    | CancelAdd
    | Input(change: FieldChange)
    | SubmitAdd
    | OpenEdit(user: User)
    | CancelEdit
    | SubmitEdit
    | Delete(userId: string, confirmed: bool)

  /** The page as first shown over the fetched users: no form open and the
      empty draft. */
  function InitialPage(users: seq<User>): (p: UsersPage)
    ensures p.users == users && !p.adding && p.editing.None?
    ensures p.draft.name == "" && p.draft.email == "" && p.draft.role == Employee
  {
    UsersPage(users, false, None, EmptyDraft)
  }

  function ChangeDraft(d: UserDraft, c: FieldChange): (r: UserDraft)
    ensures c.NameChange? ==> r == d.(name := c.name)
    ensures c.EmailChange? ==> r == d.(email := c.email)
    ensures c.RoleChange? ==> r == d.(role := c.role)
  {
    match c
    case NameChange(n) => d.(name := n)
    case EmailChange(e) => d.(email := e)
    case RoleChange(role) => d.(role := role)
  }

  function ChangeUser(u: User, c: FieldChange): (r: User)
    ensures r.id == u.id && r.companyId == u.companyId && r.createdAt == u.createdAt
    ensures c.NameChange? ==> r == u.(name := c.name)
    ensures c.EmailChange? ==> r == u.(email := c.email)
    ensures c.RoleChange? ==> r == u.(role := c.role)
  {
    match c
    case NameChange(n) => u.(name := n)
    case EmailChange(e) => u.(email := e)
    case RoleChange(role) => u.(role := role)
  }

  /** `handleInputChange`: while a user is being edited the change goes to
      that user and the draft is untouched; otherwise it goes to the draft. */
  function InputChange(p: UsersPage, c: FieldChange): (r: UsersPage)
    ensures r.users == p.users && r.adding == p.adding
    ensures p.editing.Some? ==> r.editing == Some(ChangeUser(p.editing.value, c)) && r.draft == p.draft
    ensures p.editing.None? ==> r.editing.None? && r.draft == ChangeDraft(p.draft, c)
  {
    match p.editing
    case Some(u) => p.(editing := Some(ChangeUser(u, c)))
    case None => p.(draft := ChangeDraft(p.draft, c))
  }

  /** `handleAddUser`: the draft is reset and the form hidden; the list is
      not extended. */
  function SubmitAddUser(p: UsersPage): (r: UsersPage)
    ensures r.draft == EmptyDraft && !r.adding
    ensures r.users == p.users && r.editing == p.editing
  {
    p.(draft := EmptyDraft, adding := false)
  }

  /** `handleEditUser`: the edit dialog is closed and the edited copy is
      dropped; the list keeps the original record. */
  function SubmitEditUser(p: UsersPage): (r: UsersPage)
    ensures r.editing.None?
    ensures r.users == p.users && r.adding == p.adding && r.draft == p.draft
  {
    p.(editing := None)
  }

  /** `handleDeleteUser`: whether or not the confirmation is accepted,
      nothing on the page changes. */
  function DeleteUser(p: UsersPage, userId: string, confirmed: bool): (r: UsersPage)
    ensures r == p
  {
    p
  }

  // ---- the browser's constraint validation ------------------------------

  predicate Alnum(c: char) {
    'a' <= c <= 'z' || 'A' <= c <= 'Z' || '0' <= c <= '9'
  }

  /** A character allowed before the `@` of a valid e-mail address. */
  predicate LocalChar(c: char) {
    Alnum(c) || c in ".!#$%&'*+/=?^_`{|}~-"
  }

  /** One label of a domain: 1 to 63 letters, digits and hyphens, starting
      and ending with a letter or digit. */
  predicate ValidLabel(l: string) {
    && 1 <= |l| <= 63
    && Alnum(l[0]) && Alnum(l[|l| - 1])
    && forall i :: 0 <= i < |l| ==> Alnum(l[i]) || l[i] == '-'
  }

  /** Labels separated by single dots. */
  predicate ValidDomain(d: string)
    decreases |d|
  {
    var l := Text.FirstField(d, '.');
    ValidLabel(l) && (|l| == |d| || ValidDomain(d[|l| + 1..]))
  }

  /** A valid e-mail address in the sense of the e-mail input state of the
      HTML Living Standard (section 4.10.5.1.5): a non-empty local part of
      the allowed characters, one `@`, and a domain of valid labels. */
  predicate ValidEmail(e: string) {
    var local := Text.FirstField(e, '@');
    && 1 <= |local| < |e|
    && (forall i :: 0 <= i < |local| ==> LocalChar(local[i]))
    && ValidDomain(e[|local| + 1..])
  }

  /** The add and edit forms pass the browser's checks before their submit
      handlers run: the name input is `required`, so not empty, and the
      email input is `type="email"` and `required`, so a valid address. */
  predicate FormValid(name: string, email: string) {
    name != "" && ValidEmail(email)
  }

  /** A plain address passes the e-mail check. */
  lemma EmailAccepted()
    ensures ValidEmail("jo@corp.io")
  {
    var e := "jo@corp.io";
    assert Text.FirstField(e, '@') == "jo" by {
      Text.FirstFieldAt(e, '@', 2);
    }
    assert e[3..] == "corp.io";
    DomainAccepted();
  }

  /** Two labels joined by a dot make a valid domain. */
  lemma DomainAccepted()
    ensures ValidDomain("corp.io")
  {
    var d := "corp.io";
    assert Text.FirstField(d, '.') == "corp" by {
      Text.FirstFieldAt(d, '.', 4);
    }
    assert ValidLabel("corp");
    assert d[5..] == "io";
    assert ValidDomain("io") by {
      Text.FirstFieldAt("io", '.', 2);
      assert ValidLabel("io");
    }
  }

  /** Without a local part, an `@` or a domain the e-mail check fails. */
  lemma EmailMissingPartsRefused()
    ensures !ValidEmail("") && !ValidEmail("jo") && !ValidEmail("jo@") && !ValidEmail("@corp.io")
  {
    Text.FirstFieldAt("jo", '@', 2);
    Text.FirstFieldAt("jo@", '@', 2);
    Text.FirstFieldAt("@corp.io", '@', 0);
  }

  /** A label starting with a hyphen fails the check. */
  lemma EmailHyphenRefused()
    ensures !ValidEmail("jo@-corp.io")
  {
    var e := "jo@-corp.io";
    assert Text.FirstField(e, '@') == "jo" by {
      Text.FirstFieldAt(e, '@', 2);
    }
    assert e[3..] == "-corp.io";
    assert !ValidDomain("-corp.io") by {
      Text.FirstFieldAt("-corp.io", '.', 5);
      assert !ValidLabel("-corp");
    }
  }

  /** An empty label, as between two dots, fails the check. */
  lemma EmailEmptyLabelRefused()
    ensures !ValidEmail("jo@corp..io")
  {
    var e := "jo@corp..io";
    assert Text.FirstField(e, '@') == "jo" by {
      Text.FirstFieldAt(e, '@', 2);
    }
    assert e[3..] == "corp..io";
    assert !ValidDomain("corp..io") by {
      var d := "corp..io";
      assert Text.FirstField(d, '.') == "corp" by {
        Text.FirstFieldAt(d, '.', 4);
      }
      assert d[5..] == ".io";
      assert !ValidDomain(".io") by {
        Text.FirstFieldAt(".io", '.', 0);
      }
    }
  }

  /** One event on the page. Typing and submitting need a form on screen:
      the add form is drawn only while adding, the edit form only while a
      user is being edited. A submit whose form fails the browser's checks
      never reaches its handler, so the page stays as it is. */
  function Step(p: UsersPage, e: PageEvent): (r: UsersPage)
    ensures r.users == p.users
    ensures e.OpenEdit? ==> r.editing == Some(e.user)
    ensures e.CancelEdit? ==> r.editing.None? && r.draft == p.draft
    ensures e.CancelAdd? ==> !r.adding && r.draft == p.draft
    ensures e.SubmitAdd? && p.adding && FormValid(p.draft.name, p.draft.email)
            ==> r.draft == EmptyDraft && !r.adding && r.editing == p.editing
    ensures e.SubmitAdd? && !(p.adding && FormValid(p.draft.name, p.draft.email)) ==> r == p
    ensures e.Input? && !p.adding && p.editing.None? ==> r == p
    ensures e.SubmitEdit? && p.editing.Some? && FormValid(p.editing.value.name, p.editing.value.email)
            ==> r.editing.None? && r.adding == p.adding && r.draft == p.draft
    ensures e.SubmitEdit? && !(p.editing.Some? && FormValid(p.editing.value.name, p.editing.value.email))
            ==> r == p
  {
    match e
    case OpenAdd => p.(adding := true)
    case CancelAdd => p.(adding := false)
    case Input(c) => if p.adding || p.editing.Some? then InputChange(p, c) else p
    case SubmitAdd => if p.adding && FormValid(p.draft.name, p.draft.email) then SubmitAddUser(p) else p
    case OpenEdit(u) => p.(editing := Some(u))
    case CancelEdit => p.(editing := None)
    case SubmitEdit =>
      if p.editing.Some? && FormValid(p.editing.value.name, p.editing.value.email) then SubmitEditUser(p) else p
    case Delete(id, ok) => DeleteUser(p, id, ok)
  }

  function Run(p: UsersPage, events: seq<PageEvent>): UsersPage
    decreases |events|
  {
    if |events| == 0 then p else Run(Step(p, events[0]), events[1..])
  }

  /** No sequence of adds, edits, deletes and inputs changes the user list. */
  lemma {:induction false} UsersNeverChange(p: UsersPage, events: seq<PageEvent>)
    ensures Run(p, events).users == p.users
    decreases |events|
  {
    if |events| > 0 {
      UsersNeverChange(Step(p, events[0]), events[1..]);
    }
  }

  /** Typing while a user is being edited never touches the draft, so an add
      opened afterwards still shows the earlier draft. */
  lemma {:induction false} EditingShieldsDraft(p: UsersPage, changes: seq<FieldChange>)
    requires p.editing.Some?
    ensures Run(p, seq(|changes|, i requires 0 <= i < |changes| => Input(changes[i]))).draft == p.draft
    ensures Run(p, seq(|changes|, i requires 0 <= i < |changes| => Input(changes[i]))).editing.Some?
    decreases |changes|
  {
    var events := seq(|changes|, i requires 0 <= i < |changes| => Input(changes[i]));
    if |changes| > 0 {
      var next := Step(p, events[0]);
      var rest := seq(|changes[1..]|, i requires 0 <= i < |changes[1..]| => Input(changes[1..][i]));
      assert events[1..] == rest;
      EditingShieldsDraft(next, changes[1..]);
    }
  }
}
